=== FILE: README.md ===
# AIQA tracing client — a Dafny model

This project models three self-contained parts of the AIQA tracing client.

1. **The span exporter** (`AIQASpanExporter`). It keeps an ordered buffer of
   serialized span records and a set of `(traceId, spanId)` keys.
   - `export` admits only spans whose key is not yet tracked.
   - `flush` takes the whole buffer at once. It then drops the batch when no
     server is configured, releases the batch's keys after a successful send,
     or puts the batch back in front after a failed send.
   - The final pass of `shutdown` abandons the batch when its send fails.
   - Each lock-protected method is one atomic transition. The send is an
     abstract outcome. A flush and the final pass are each split at their
     send, so exports can interleave with them. `Exporter.RunKeepsInvariants`
     shows that over every such interleaving no record is lost, duplicated
     or reordered. It also shows that the key set stays exactly the keys of
     the records held until a failed final send abandons its batch.
2. **The `WithTracing` decorator** (`tracing.py`). It covers:
   - reducing values to span attributes (`_serialize_for_span`);
   - shaping call arguments;
   - the filter and ignore helpers;
   - span naming and idempotent wrapping;
   - the span life cycle around a plain call, a traced generator, and the
     start of a generator function.
   The OpenTelemetry span is reduced to its name, attributes, status,
   recorded exceptions and a count of `end()` calls. As in the SDK, a span
   that is not recording ignores every change. `json.dumps` and `str()` are
   an `Encoder` given as a parameter.
3. **The OTLP test tool's parsers**: `parse_headers` (a comma-separated
   `key=value` list) and `get_endpoint` (trailing `/` and `/v1/traces` removal).

Modules:
- `Wrappers`: Option and Result.
- `Strings`: Python's `strip`, `rstrip`, `split`, `endswith` and first-index
  search over `string`.
- `SpanBuffer`: the buffer and key set.
- `Exporter`: configuration, request, flush and shutdown, and the concurrent
  model.
- `Values`: Python values and `_serialize_for_span`.
- `Tracing`: the decorator.
- `OtelEndpoint`: the two parsers.

Environment variables are passed in as `Option<string>` parameters, with
`None` meaning unset.

## Model

| member | source | states |
|---|---|---|
| OtelEndpoint.SegmentPair | server/scripts/test_otel_endpoint.py:42-45 | A segment gives a pair exactly when its stripped text holds `=`. The key then has no `=`, and key and value are whitespace-stripped. |
| OtelEndpoint.ParseHeaders | server/scripts/test_otel_endpoint.py:35-46 | `None` and the empty string give an empty map. |
| OtelEndpoint.ParseHeadersLastWins | server/scripts/test_otel_endpoint.py:40-46 | A key is present exactly when some segment with `=` names it. Its value is the one from the last such segment, so later segments overwrite earlier ones and segments without `=` are ignored. |
| OtelEndpoint.SegmentOfPair | server/scripts/test_otel_endpoint.py:42-45 | A segment splits on its first `=` only: whitespace around the segment, the key and the value is dropped, and the value may itself contain `=`. |
| OtelEndpoint.ParseRender | server/scripts/test_otel_endpoint.py:35-46 | Round trip: parsing `k1=v1,k2=v2,...` built from well-formed pairs gives the pairs' map, the last value winning. |
| OtelEndpoint.GetEndpoint | server/scripts/test_otel_endpoint.py:49-61 | Gives `None` exactly when the variable is unset or empty. Otherwise it gives a prefix of the value, cut either by a run of `/` that leaves no `/v1/traces` ending, or by `/v1/traces` followed by `/`s. |
| OtelEndpoint.EndpointOfBase | server/scripts/test_otel_endpoint.py:56-59 | Every decorated form of a base address (`base`, `base//`, `base/v1/traces/`, ...) gives that base back. |
| Strings.Split | server/scripts/test_otel_endpoint.py:41 | `split(',')` gives at least one piece, no piece holds the separator, and joining the pieces gives the input back. |
| Strings.SplitJoin | server/scripts/test_otel_endpoint.py:41 | The converse round trip: pieces without the separator are recovered by splitting their join. |
| Strings.StripSurrounded | server/scripts/test_otel_endpoint.py:42-45 | `strip()` removes exactly the surrounding whitespace. |
| Strings.StripIdempotent | server/scripts/test_otel_endpoint.py:42-45 | Stripping twice is stripping once. |
| Strings.TrimEnd | client-python/aiqa/aiqa_exporter.py:56 | `rstrip(chars)` gives a prefix that does not end in `chars`, and everything cut off is in `chars`. |
| SpanBuffer.Admit | client-python/aiqa/aiqa_exporter.py:72-85 | The admitted spans are the input in order with the duplicates left out. Admitted plus duplicates equals the input count. The admitted keys are pairwise distinct and exactly the keys not tracked before. The key set grows by all the input keys. |
| SpanBuffer.AdmitTakesFirstOccurrences | client-python/aiqa/aiqa_exporter.py:75-81 | The admitted spans are exactly the first span of each key that was not tracked before the call, in input order. This is checked against a reference filter that scans the call from its end. |
| SpanBuffer.Export | client-python/aiqa/aiqa_exporter.py:62-99 | Every call reports `SUCCESS`, the empty call included. An empty call changes nothing. Otherwise the old buffer stays a prefix and the admitted records follow it. The buffer invariant (distinct, tracked keys) is kept. |
| SpanBuffer.Extract | client-python/aiqa/aiqa_exporter.py:194-205 | Returns the whole buffer in order, leaves it empty, and leaves the key set untouched. |
| SpanBuffer.ReleaseKeys | client-python/aiqa/aiqa_exporter.py:207-214 | Removes exactly the batch's keys; records are untouched. |
| SpanBuffer.Restore | client-python/aiqa/aiqa_exporter.py:216-224 | The buffer becomes the batch followed by the old buffer, and the key set becomes exactly that buffer's keys. |
| SpanBuffer.ClearAll | client-python/aiqa/aiqa_exporter.py:226-230 | Empties both the records and the keys. |
| SpanBuffer.ExportKeepsTracked | client-python/aiqa/aiqa_exporter.py:72-85 | An export during a send refuses duplicates of pending and in-flight records alike, so key tracking stays exact. |
| SpanBuffer.ExtractKeepsTracked | client-python/aiqa/aiqa_exporter.py:194-205 | Extraction turns exactly tracked pending records into exactly tracked in-flight ones. |
| SpanBuffer.ReleaseKeepsTracked | client-python/aiqa/aiqa_exporter.py:207-214 | After release only the keys of the still-pending records remain. |
| SpanBuffer.RestoreKeepsTracked | client-python/aiqa/aiqa_exporter.py:216-224 | A restored batch sits ahead of records admitted meanwhile, and tracking is exact again. |
| Exporter.TimeToTuple | client-python/aiqa/aiqa_exporter.py:165-169 | `0 <= nanos < 10^9` and `seconds * 10^9 + nanos` equals the input, negative inputs included. |
| Exporter.TimeTupleRoundTrip | client-python/aiqa/aiqa_exporter.py:165-169 | The split is unique: a normalized pair is recovered from the nanoseconds it denotes. |
| Exporter.ServerUrl | client-python/aiqa/aiqa_exporter.py:54-56 | A non-empty configured URL is used as given. Otherwise the environment value (empty when unset) is used with its trailing `/` removed. |
| Exporter.ApiKey | client-python/aiqa/aiqa_exporter.py:58-60 | The configured key if non-empty, else the environment's, else empty. |
| Exporter.RequestHeaders | client-python/aiqa/aiqa_exporter.py:171-176 | Always `Content-Type: application/json`. `Authorization: ApiKey <key>` is present exactly when the key is non-empty, and the key can be read back from it. There are no other headers. |
| Exporter.SpanUrl | client-python/aiqa/aiqa_exporter.py:178-182 | Fails exactly when the server URL is empty. Otherwise gives the URL followed by `/span`. |
| Exporter.FlushFinish | client-python/aiqa/aiqa_exporter.py:245-285 | Conservation: the departed records followed by the remaining buffer are exactly the batch followed by the buffer. A send happens exactly when the batch is non-empty and a server is set. After a successful send, or with no server, exactly the batch departs and only its keys are released, so records admitted during the send stay pending. Records are lost only when no server is set. A failed send restores the batch in front and rebuilds the keys from the result. It raises exactly on a `RuntimeError`, or on another error once shutdown was requested. Exact key tracking is kept. |
| Exporter.ShutdownErrorKindIrrelevant | client-python/aiqa/aiqa_exporter.py:265-279 | Whether a `RuntimeError` is an interpreter-shutdown error changes nothing but logging: the batch is restored and the error raised. |
| Exporter.FlushEmptyIsNoOp | client-python/aiqa/aiqa_exporter.py:242-247 | Flushing an empty buffer sends nothing, raises nothing and changes nothing. |
| Exporter.FlushUnconfiguredDrops | client-python/aiqa/aiqa_exporter.py:249-256 | Without a server the buffer is emptied and exactly its keys are released, with no send. |
| Exporter.FlushSentDelivers | client-python/aiqa/aiqa_exporter.py:258-264 | A successful send delivers the whole buffer in order and releases every key. |
| Exporter.FailedFlushKeepsOrder | client-python/aiqa/aiqa_exporter.py:265-285 | A send that fails while spans are admitted leaves the failed batch ahead of them, with exact tracking and the raise rule above. |
| Exporter.SentFlushLeavesLateExports | client-python/aiqa/aiqa_exporter.py:242-264 | Spans exported during a flush's send are admitted behind the batch, duplicates of the batch refused. A successful send delivers exactly the records pending when the flush began. The late records, none sharing a key with the batch, stay pending and exactly tracked. |
| Exporter.RetryDeliversInOrder | client-python/aiqa/aiqa_exporter.py:232-285 | A failed flush, an export, then a successful flush delivers the old records followed by the new ones, once each. |
| Exporter.ShutdownFlush | client-python/aiqa/aiqa_exporter.py:423-452 | With nothing exported during its send, the final pass never raises and leaves nothing pending. A failed send abandons the batch and keeps its keys. It follows the same drop and release rules as `flush`. |
| Exporter.ShutdownFinish | client-python/aiqa/aiqa_exporter.py:432-450 | After the send the whole batch has departed, delivered exactly when a send succeeded, and the records admitted during the send stay pending. Nothing is raised. An empty batch changes nothing. On success or with no server exactly the batch's keys are released, whether or not tracking was exact, and exact tracking is restored when it held. A failed send keeps the buffer, keys included, as it found it. |
| Exporter.FinalPassLeavesLateExports | client-python/aiqa/aiqa_exporter.py:423-458 | Spans exported during the final send are admitted behind the batch, duplicates of the batch refused. Whatever the outcome, the pass takes exactly the records pending when it began, and the late records, none sharing a key with the batch, stay pending. |
| Exporter.StepKeepsInvariants | client-python/aiqa/aiqa_exporter.py:62-285 | Each atomic step keeps pending and in-flight records distinct and tracked, and conserves records. The steps are an export, a flush's two halves, a shutdown request, and the final pass's two halves. A step also keeps the key set exactly the keys of those records, unless it is a failed final send. |
| Exporter.RunKeepsInvariants | client-python/aiqa/aiqa_exporter.py:232-285 | Over every interleaving: departures, then the in-flight batch, then the buffer, are the initial buffer followed by every admitted record, in order. From exact tracking, the key set stays exactly the keys of the records held until a failed final send. |
| Exporter.StartIsSound | client-python/aiqa/aiqa_exporter.py:41-42 | A valid buffer with nothing in flight satisfies both invariants. When its keys are exactly its records' keys, it is exactly tracked. |
| Exporter.StepLeaksOnlyOnFailedFinalSend | client-python/aiqa/aiqa_exporter.py:446-450 | The only step that can leave keys tracked for records the exporter no longer holds is a failed final send of a non-empty batch to a configured server. |
| Exporter.ConfiguredRunDeliversAll | client-python/aiqa/aiqa_exporter.py:249-264 | With a server configured and no final pass settling, every record that leaves the exporter was delivered. |
| Values.Serialize | client-python/aiqa/tracing.py:79-105 | Primitives are kept. A list or tuple of primitives becomes a list with the same items in order. Anything else becomes its JSON text, or its `str()` when JSON fails. The result is always a primitive or a list of primitives. |
| Values.SerializeFixedPoints | client-python/aiqa/tracing.py:79-105 | The values left unchanged are exactly the valid attribute values, so serializing twice is serializing once. |
| Values.DropKeysContents | client-python/aiqa/tracing.py:133-136 | Deleting the listed keys one after another keeps exactly the entries whose key is not listed. |
| Values.DropKeysIsUnlisted | client-python/aiqa/tracing.py:133-136 | The ignore loop keeps the unlisted entries in their original order, each as often as it occurred. This is checked against an independent ordered filter. |
| Tracing.PrepareInput | client-python/aiqa/tracing.py:108-120 | No arguments give `None`. A single positional argument gives that argument serialized. Otherwise a dict whose keys are, in this order, `args` exactly when there are positional arguments and `kwargs` exactly when there are keyword arguments, each element serialized. |
| Tracing.FilterAndIgnore | client-python/aiqa/tracing.py:123-154 | After the filter, a dict keeps exactly the entries whose key is not ignored, in their original order. Non-dicts, and any value when the ignore list is empty, pass through. |
| Tracing.IgnoreInputWithoutFilter | client-python/aiqa/tracing.py:130-136 | Without a filter, an ignore list naming neither `args` nor `kwargs` changes nothing. |
| Tracing.HandleException | client-python/aiqa/tracing.py:157-161 | A recording span gets the exception recorded and ERROR status with its message. A span that is not recording is untouched. Attributes, name, sampling and the end count never change. |
| Tracing.HandleExceptionAccumulates | client-python/aiqa/tracing.py:157-161 | Two exceptions on a recording span are both recorded, in order, and the status carries the later message. On an ended span, handling changes nothing. |
| Tracing.SpanName | client-python/aiqa/tracing.py:345 | The explicit name, else the function name, else `_`; never empty. |
| Tracing.WithTracing | client-python/aiqa/tracing.py:344-350 | An already traced function is returned unchanged. Any other is traced under `SpanName`, keeping its name and kind. |
| Tracing.WithTracingIdempotent | client-python/aiqa/tracing.py:347-350 | Tracing twice is tracing once. |
| Tracing.SetupSpan | client-python/aiqa/tracing.py:358-371 | Reports whether the span records. Only then does it set `input` (serialized, when there is input). |
| Tracing.FinalizeSuccess | client-python/aiqa/tracing.py:373-377 | Sets the prepared output as `output`, except when it is `None`, then OK. Exceptions, name, sampling and the end count are untouched. |
| Tracing.ExecuteWithSpan | client-python/aiqa/tracing.py:379-406 | The caller sees exactly the function's value or its exception, and the span is ended exactly once under its own name. On a recording span, a return leaves exactly the `input` attribute set up and, unless the prepared output is `None`, `output`, with OK status. A raise leaves exactly the `input` attribute, records the exception and sets ERROR. A span that is not recording is only ended. |
| Tracing.Summary | client-python/aiqa/tracing.py:209-228 | The keys are exactly `type`, `yielded_count`, then `sample_values` when n > 0, then `truncated` when n > 10, in that order. `type` is the generator kind and `yielded_count` the count. `sample_values` holds the first min(10, n) values serialized. |
| Tracing.FinalizeGenerator | client-python/aiqa/tracing.py:209-228 | On a recording span, a generator is finalized exactly as a plain call returning the summary of its yielded values would be. A span that is not recording is untouched. |
| Tracing.GenNext | client-python/aiqa/tracing.py:188-207 | An exhausted generator stops without touching anything. A yield is recorded and passed on. A stop or a raise exhausts the generator, ends the span and detaches the context once, keeps the span's name, and passes the stop or the exception on. A stop sets OK and, as `output`, the prepared summary of the values yielded. A raise records the exception, sets ERROR, and leaves the attributes as they were. |
| Tracing.DriveSettlesOnce | client-python/aiqa/tracing.py:188-207 | However often it is driven, the span is ended and the context detached exactly when the generator is exhausted, and never twice. |
| Tracing.DriveYieldsInOrder | client-python/aiqa/tracing.py:192-195 | The values pass through unchanged and in order and are all recorded. The span stays open while only yields happen. |
| Tracing.DriveYieldsThenStops | client-python/aiqa/tracing.py:188-228 | A generator that yields n values and then stops: the caller gets the values in order, then `StopIteration`. The span is ended once with OK, and its `output` is the prepared summary of exactly those n values. |
| Tracing.StartGenerator | client-python/aiqa/tracing.py:410-429 | Recording span: the generator is wrapped with its span open. Otherwise the raw generator is returned with the span ended and the context detached once. If creation raises, the context is detached once, and the span is ended with only its `input` attribute. On a recording span the error is recorded with ERROR status. The error is re-raised. |
| Tracing.StartedGeneratorUnsettled | client-python/aiqa/tracing.py:416-424 | A freshly traced generator starts settled neither way. |
| Tracing.AsyncGeneratorAsWrittenAlwaysFails | client-python/aiqa/tracing.py:437-450 | As written, every call of a traced async generator function raises `TypeError` and ends its span with ERROR. |
| Tracing.StartAsyncGenerator | client-python/aiqa/tracing.py:431-450 | Corrected: the async generator object is wrapped, not awaited, and traced like a sync one. |
| Tracing.Invoke | client-python/aiqa/tracing.py:452-499 | Plain and async calls complete with the function's own outcome and one ended span named after the traced name. A generator function starts its traced generator, or hands back the raw one, or re-raises, according to sampling and creation. As written, every call of an async generator function fails, with its creation error or with `TypeError`, and its span is ended. |
| Tracing.InvokeIntended | client-python/aiqa/tracing.py:431-459 | Corrected: an async generator function starts its traced generator under exactly the rules of a sync one. Every other kind of call is as in `Invoke`. |
| Tracing.AddExample | client-python/aiqa/tracing.py:488-499 | `add(2, 3)`: input is the JSON of `{"args": [2, 3]}`, output `5`, OK, ended once, and the caller gets `5`. |
| Tracing.FifteenValueSummary | client-python/aiqa/tracing.py:218-224 | Fifteen yields give count 15, the first ten as samples, and `truncated`. |
| Tracing.SetSpanAttribute | client-python/aiqa/tracing.py:508-519 | Answers true exactly when the active span records. Only then is the serialized value set, under that one key. A `None` value changes no attribute. Name, status, exceptions and end count are never touched. |
| Tracing.SetSpanName | client-python/aiqa/tracing.py:521-529 | Answers true exactly when the active span records. Only then is it renamed. |
| Tracing.ActiveSpanHelpersAgree | client-python/aiqa/tracing.py:358-371 | Recording a call's input is setting the `input` attribute on the active span. Renaming the active span and setting one of its attributes commute and give the same answer. |

## Left out

- Network I/O (`_send_spans`, `_send_spans_sync`): a send is an abstract outcome (sent, `RuntimeError`, or another `Exception`).
- Exporter.FlushFinish: a send interrupted by a `BaseException` that is not an `Exception` (`asyncio.CancelledError`, `KeyboardInterrupt`) is not modelled. It passes both handlers of `flush` (aiqa_exporter.py:259-285), so the extracted batch is neither restored nor released. Its records are lost, and their keys stay tracked, so re-exports of them are refused.
- Exporter.ShutdownFinish: the same interruption passes the final pass's handler (aiqa_exporter.py:446), with the same loss and leaked keys. It is not modelled either.
- Threads and locks: the auto-flush thread, its sleeps, and `shutdown`'s join timeout. Each lock-protected method is one atomic step. A flush that would wait on the flush lock is modelled as not having started.
- Logging, and the buffer-size checks in `shutdown` that only log.
- `_serialize_span`'s field copying from SDK span objects. A record keeps only the fields the buffer logic reads (ids, name, times).
- `_extract_spans_from_buffer`: a non-removing copy that no modelled operation calls.
- Environment reads: passed in as parameters.
- Floats: opaque bits. `flush_interval_ms` and `get_timeout` are not modelled.
- `json.dumps` and `str()`: the `Encoder` parameter. Exceptions other than `TypeError`/`ValueError` from them are not modelled.
- Dict keys are strings only, and dicts are entry sequences. `parse_headers`' result is a map, so its insertion order is not kept.
- Aliasing: the in-place deletion `_prepare_and_filter_input` does on a dict returned by the user's filter is not visible in an immutable value model.
- `ignore_input`/`ignore_output` given as one string (which Python iterates character by character): ignore lists are sequences of keys.
- Filters are total functions. A filter that raises inside a generator's finalization, which would leave its span open, is not modelled.
- The SDK's own handling in `start_as_current_span` when an exception leaves the `with` block (a second recording and status) is not modelled. Neither are the SDK's attribute validation beyond dropping `None` and its rule that an OK status is final.
- Tracing.ExecuteWithSpan: an exception that is not an `Exception` (`KeyboardInterrupt`, `SystemExit`, `asyncio.CancelledError`) skips `_handle_span_exception` (tracing.py:389, :404). The span is still ended by its `with` block, and any recording is left to the SDK's context manager, which is not modelled. The model's `Raised` outcome stands for `Exception` subclasses only.
- Tracing.GenNext: such an exception passes `__next__`/`__anext__` (tracing.py:202, :269) and leaves the span open, the context attached and the generator not exhausted. A later `next` can then finish it as OK. The model's `Throws` step stands for `Exception` subclasses only.
- Tracing.StartGenerator: such an exception while creating the generator (tracing.py:425, :446) leaves the span open and the context attached. The model's `Raised` outcome stands for `Exception` subclasses only.
- The context token is a count of detaches. The context itself is not modelled.
- The OTLP tool's `get_timeout`, `get_service_name`, `send_test_span` and `main`: SDK set-up and I/O.
- `flush_tracing`, `shutdown_tracing`, `get_provider`, `get_exporter`, `get_active_span`, `TracingOptions`: glue over the client singleton.
- `client.py`, `__init__.py` and `client-java/.../Tracing.java` are not part of this model: singleton and SDK glue, re-exports, and wrappers over the Java span API.
- OtelEndpoint.GetEndpoint: follows the code where it differs from a natural reading. An endpoint of only `/`, or exactly `/v1/traces`, gives `Some("")`, not `None`.

## Findings

| source | as written | input that shows it | evidently intended | confidence | as-written member | corrected member |
|---|---|---|---|---|---|---|
| client-python/aiqa/tracing.py:437-445 | `generator = await executor()`, where `executor()` calls an async generator function and so returns an async generator object | any traced `async def g(): yield 1`, called and awaited: the object cannot be awaited, so `TypeError` is raised, the span is ended with ERROR and nothing is yielded | wrap the object without awaiting it (`generator = executor()`), as the sync branch does; the caller then awaits the `async def` wrapper to receive the traced generator | not executed; high | Tracing.AsyncGeneratorAsWrittenAlwaysFails | Tracing.InvokeIntended |

=== FILE: exporter.dfy ===
/** The span exporter around the buffer: configuration lookups, request
    construction, the flush and shutdown state machines, and a model of the
    whole exporter under concurrent `export` calls, in which every flush is
    split at its one suspension point (the network send). The send itself
    is not modelled: its outcome is a parameter. */
module Exporter {
  import opened Wrappers
  import opened Strings
  import opened SpanBuffer

  const NanosPerSecond: int := 1_000_000_000

  /** `_time_to_tuple`: Python's `//` and `%` round toward negative
      infinity, which for a positive divisor is Dafny's Euclidean `/` and
      `%`; so the remainder is a valid nanosecond count and the pair
      recombines to the input, negative inputs included. */
  function TimeToTuple(nanoseconds: int): (r: TimeTuple)
    ensures 0 <= r.nanos < NanosPerSecond
    ensures r.seconds * NanosPerSecond + r.nanos == nanoseconds
  {
    TimeTuple(nanoseconds / NanosPerSecond, nanoseconds % NanosPerSecond)
  }

  /** A normalized pair denotes this many nanoseconds. */
  function TupleToNanos(t: TimeTuple): int {
    t.seconds * NanosPerSecond + t.nanos
  }

  /** The split is the only normalized pair for its instant: splitting the
      nanoseconds a normalized pair denotes gives that pair back. */
  lemma TimeTupleRoundTrip(t: TimeTuple)
    requires 0 <= t.nanos < NanosPerSecond
    ensures TimeToTuple(TupleToNanos(t)) == t
  {
    var n := TupleToNanos(t);
    var r := TimeToTuple(n);
    DivModUnique(n, t.seconds, t.nanos, r.seconds, r.nanos);
  }

  lemma DivModUnique(n: int, q1: int, r1: int, q2: int, r2: int)
    requires 0 <= r1 < NanosPerSecond && 0 <= r2 < NanosPerSecond
    requires q1 * NanosPerSecond + r1 == n && q2 * NanosPerSecond + r2 == n
    ensures q1 == q2 && r1 == r2
  {
    assert (q1 - q2) * NanosPerSecond == r2 - r1;
  }

  /** The `server_url` property: an explicitly configured address wins as
      given; otherwise the environment's address (empty when unset) with
      its trailing slashes removed. */
  function ServerUrl(configured: Option<string>, env: Option<string>): (r: string)
    ensures configured.Some? && configured.value != "" ==> r == configured.value
    ensures configured.None? || configured.value == "" ==>
      r <= env.GetOr("") && (|r| == 0 || r[|r| - 1] != '/') && AllIn(env.GetOr("")[|r|..], {'/'})
  {
    if configured.Some? && configured.value != "" then configured.value
    else TrimEnd(env.GetOr(""), {'/'})
  }

  /** The `api_key` property: the configured key, else the environment's,
      else the empty string. */
  function ApiKey(configured: Option<string>, env: Option<string>): (r: string)
    ensures configured.Some? && configured.value != "" ==> r == configured.value
    ensures configured.None? || configured.value == "" ==> r == env.GetOr("")
  {
    if configured.Some? && configured.value != "" then configured.value else env.GetOr("")
  }

  const AuthorizationScheme: string := "ApiKey "

  /** `_build_request_headers`: always a JSON content type; an
      `Authorization` header exactly when there is a key, from which the key
      can be read back; no other header. */
  function RequestHeaders(apiKey: string): (r: map<string, string>)
    ensures "Content-Type" in r && r["Content-Type"] == "application/json"
    ensures "Authorization" in r <==> apiKey != ""
    ensures "Authorization" in r ==>
      AuthorizationScheme <= r["Authorization"] && r["Authorization"][|AuthorizationScheme|..] == apiKey
    ensures r.Keys <= {"Content-Type", "Authorization"}
  {
    var headers := map["Content-Type" := "application/json"];
    if apiKey != "" then headers["Authorization" := AuthorizationScheme + apiKey] else headers
  }

  datatype ConfigError = ServerUrlNotSet

  const SpanPath: string := "/span"

  /** `_get_span_url`: fails when no server is configured; otherwise the
      server address with `/span` appended, from which the address can be
      read back. */
  function SpanUrl(serverUrl: string): (r: Result<string, ConfigError>)
    ensures r.Failure? <==> serverUrl == ""
    ensures r.Success? ==>
      EndsWith(r.value, SpanPath) && r.value[..|r.value| - |SpanPath|] == serverUrl
  {
    if serverUrl == "" then Failure(ServerUrlNotSet)
    else
      var url := serverUrl + SpanPath;
      assert url[|url| - |SpanPath|..] == SpanPath;
      Success(url)
  }

  /** How a send can fail: a `RuntimeError` (possibly the interpreter
      refusing new work during teardown), or any other exception. */
  datatype SendError = RuntimeError(interpreterShutdown: bool) | OtherError

  /** The abstract outcome of one POST of a batch. */
  datatype SendOutcome = Sent | SendFailed(error: SendError)

  /** What a flush did: the buffer afterwards, whether a send was made,
      the records that left the exporter for good (in order), whether they
      reached the server, and whether the flush raised to its caller. */
  datatype FlushResult = FlushResult(
    buffer: Buffer,
    attempted: bool,
    departed: seq<SpanRecord>,
    delivered: bool,
    raised: bool)

  /** The part of `flush` after the extraction: `b` is the buffer as it is
      when the flush resumes, so it may hold records admitted while the
      batch was away. An empty batch does nothing; with no server the batch
      is dropped and its keys released without a send; a successful send
      releases the keys; a failed send puts the batch back in front and
      raises on a `RuntimeError`, or on another error once shutdown has
      been requested. In every case the departed records followed by the
      remaining buffer are exactly the batch followed by the old buffer:
      nothing lost, nothing duplicated, order kept. */
  function FlushFinish(b: Buffer, batch: seq<SpanRecord>, serverUrl: string,
                       outcome: SendOutcome, shutdownRequested: bool): (r: FlushResult)
    ensures r.attempted <==> |batch| > 0 && serverUrl != ""
    ensures r.departed + r.buffer.records == batch + b.records
    ensures r.delivered <==> r.attempted && outcome.Sent?
    ensures r.departed != [] && !r.delivered ==> serverUrl == ""
    ensures r.attempted && outcome.SendFailed? ==> r.departed == [] && r.buffer.records == batch + b.records
    ensures r.attempted && outcome.SendFailed? ==> r.buffer.keys == KeysOf(batch + b.records)
    ensures (r.attempted && outcome.Sent?) || (|batch| > 0 && serverUrl == "") ==>
      r.departed == batch && r.buffer == ReleaseKeys(b, batch)
    ensures r.raised <==>
      r.attempted && outcome.SendFailed? && (outcome.error.RuntimeError? || shutdownRequested)
    ensures |batch| == 0 ==> r.buffer == b
    ensures Tracked(b, batch) ==> Tracked(r.buffer, [])
  {
    if |batch| == 0 then
      FlushResult(b, false, [], false, false)
    else if serverUrl == "" then
      ReleaseKeepsTrackedIf(b, batch);
      FlushResult(ReleaseKeys(b, batch), false, batch, false, false)
    else match outcome
      case Sent =>
        ReleaseKeepsTrackedIf(b, batch);
        FlushResult(ReleaseKeys(b, batch), true, batch, true, false)
      case SendFailed(error) =>
        RestoreKeepsTrackedIf(b, batch);
        var raise := match error
          case RuntimeError(_) => true
          case OtherError => shutdownRequested;
        assert [] + (batch + b.records) == batch + b.records;
        FlushResult(Restore(b, batch), true, [], false, raise)
  }

  /** `_is_interpreter_shutdown_error` only chooses a log message: a
      flush treats every `RuntimeError` alike, restoring the batch and
      raising. */
  lemma ShutdownErrorKindIrrelevant(b: Buffer, batch: seq<SpanRecord>, serverUrl: string,
                                    shutdownRequested: bool, x: bool, y: bool)
    ensures FlushFinish(b, batch, serverUrl, SendFailed(RuntimeError(x)), shutdownRequested)
         == FlushFinish(b, batch, serverUrl, SendFailed(RuntimeError(y)), shutdownRequested)
    ensures |batch| > 0 && serverUrl != "" ==>
      FlushFinish(b, batch, serverUrl, SendFailed(RuntimeError(x)), shutdownRequested).raised
  {
  }

  /** An adapter: `ReleaseKeepsTracked` as an implication, for use inside
      function bodies where the premise may not hold. */
  lemma ReleaseKeepsTrackedIf(b: Buffer, batch: seq<SpanRecord>)
    ensures Tracked(b, batch) ==> Tracked(ReleaseKeys(b, batch), [])
  {
    if Tracked(b, batch) {
      ReleaseKeepsTracked(b, batch);
    }
  }

  /** An adapter: `RestoreKeepsTracked` as an implication. */
  lemma RestoreKeepsTrackedIf(b: Buffer, batch: seq<SpanRecord>)
    ensures Tracked(b, batch) ==> Tracked(Restore(b, batch), [])
  {
    if Tracked(b, batch) {
      RestoreKeepsTracked(b, batch);
    }
  }

  /** `flush` with nothing happening during the send. */
  function Flush(b: Buffer, serverUrl: string, outcome: SendOutcome, shutdownRequested: bool): FlushResult {
    var x := Extract(b);
    FlushFinish(x.buffer, x.batch, serverUrl, outcome, shutdownRequested)
  }

  /** Flushing an empty buffer makes no send, raises nothing and changes
      nothing. */
  lemma FlushEmptyIsNoOp(b: Buffer, serverUrl: string, outcome: SendOutcome, shutdownRequested: bool)
    requires |b.records| == 0
    ensures Flush(b, serverUrl, outcome, shutdownRequested) == FlushResult(b, false, [], false, false)
  {
    assert Extract(b).buffer == b;
  }

  /** With no server configured a flush drops every pending record without
      a send and releases exactly their keys. */
  lemma FlushUnconfiguredDrops(b: Buffer, outcome: SendOutcome, shutdownRequested: bool)
    ensures var r := Flush(b, "", outcome, shutdownRequested);
      && !r.attempted && !r.raised && !r.delivered
      && r.departed == b.records && r.buffer.records == []
      && r.buffer.keys == b.keys - KeysOf(b.records)
  {
  }

  /** A successful send delivers the whole buffer in order and releases the
      keys; with exact tracking nothing stays tracked afterwards. */
  lemma FlushSentDelivers(b: Buffer, serverUrl: string, shutdownRequested: bool)
    requires |b.records| > 0 && serverUrl != ""
    ensures var r := Flush(b, serverUrl, Sent, shutdownRequested);
      && r.attempted && r.delivered && !r.raised
      && r.departed == b.records && r.buffer.records == []
      && (Tracked(b, []) ==> r.buffer.keys == {})
  {
    var r := Flush(b, serverUrl, Sent, shutdownRequested);
    if Tracked(b, []) {
      ExtractKeepsTracked(b);
      assert r.buffer.keys == KeysOf([] + []);
      assert KeysOf([]) == {};
    }
  }

  /** A send that fails while other spans are admitted keeps the failed
      batch AHEAD of them: the buffer becomes the old records followed by
      the newly admitted ones, and every key is still tracked exactly. */
  lemma FailedFlushKeepsOrder(b: Buffer, during: seq<SpanRecord>, serverUrl: string,
                              error: SendError, shutdownRequested: bool)
    requires Tracked(b, []) && |b.records| > 0 && serverUrl != ""
    ensures var x := Extract(b);
      var mid := Export(x.buffer, during).buffer;
      var r := FlushFinish(mid, x.batch, serverUrl, SendFailed(error), shutdownRequested);
      && r.buffer.records == b.records + Admit(b.keys, during).added
      && r.departed == []
      && Tracked(r.buffer, [])
      && (r.raised <==> error.RuntimeError? || shutdownRequested)
  {
    var x := Extract(b);
    ExtractKeepsTracked(b);
    var added := Admit(b.keys, during).added;
    var mid := Export(x.buffer, during).buffer;
    ExportKeepsTracked(x.buffer, x.batch, during);
    assert mid.records == [] + added;
    assert [] + added == added;
    var r := FlushFinish(mid, x.batch, serverUrl, SendFailed(error), shutdownRequested);
    assert r.attempted;
    assert r.buffer.records == b.records + added;
  }

  /** Spans exported while a flush's send is out are admitted behind the
      batch, duplicates of the batch refused; a successful send then
      delivers exactly the records that were pending when the flush
      began, and the late records stay pending, exactly tracked. */
  lemma SentFlushLeavesLateExports(b: Buffer, during: seq<SpanRecord>, serverUrl: string, shutdownRequested: bool)
    requires Tracked(b, []) && serverUrl != ""
    ensures var x := Extract(b);
      var mid := Export(x.buffer, during).buffer;
      var r := FlushFinish(mid, x.batch, serverUrl, Sent, shutdownRequested);
      && r.departed == b.records
      && (r.delivered <==> |b.records| > 0)
      && r.buffer.records == Admit(b.keys, during).added
      && Tracked(r.buffer, [])
      && KeysOf(r.buffer.records) !! KeysOf(b.records)
  {
    var x := Extract(b);
    ExtractKeepsTracked(b);
    var added := Admit(b.keys, during).added;
    var mid := Export(x.buffer, during).buffer;
    ExportKeepsTracked(x.buffer, x.batch, during);
    assert mid.records == [] + added == added;
    assert b.keys == KeysOf([] + b.records);
    assert [] + b.records == b.records;
  }

  /** The retry scenario: pending `[A, B, C]`, a failed flush, a span `D`
      admitted, then a successful flush delivers `[A, B, C, D]` — all of
      them, once each, and never `D` first. */
  lemma RetryDeliversInOrder(b: Buffer, later: seq<SpanRecord>, serverUrl: string,
                             error: SendError, shutdownRequested: bool)
    requires Tracked(b, []) && |b.records| > 0 && serverUrl != ""
    ensures var r1 := Flush(b, serverUrl, SendFailed(error), shutdownRequested);
      var e := Export(r1.buffer, later);
      var r2 := Flush(e.buffer, serverUrl, Sent, shutdownRequested);
      && r1.departed == []
      && r2.delivered
      && r2.departed == b.records + Admit(b.keys, later).added
      && r2.buffer.records == []
  {
    var r1 := Flush(b, serverUrl, SendFailed(error), shutdownRequested);
    ExtractKeepsTracked(b);
    assert r1.buffer.records == b.records;
    assert r1.buffer.keys == KeysOf(b.records);
    assert b.keys == KeysOf([] + b.records);
    assert [] + b.records == b.records;
  }

  /** The part of the final pass of `shutdown` after the extraction, with
      the blocking send: `b` is the buffer as it is when the send returns,
      so it may hold records admitted while the batch was away. The same
      drop-if-unconfigured and release-on-success rules as `flush`, but a
      failed send abandons the batch instead of restoring it (the keys of
      the abandoned records stay tracked), and nothing is raised. Either way
      the whole batch leaves the exporter, and whatever was admitted during
      the send stays pending. */
  function ShutdownFinish(b: Buffer, batch: seq<SpanRecord>, serverUrl: string, outcome: SendOutcome): (r: FlushResult)
    ensures r.departed == batch
    ensures r.buffer.records == b.records
    ensures !r.raised
    ensures r.attempted <==> |batch| > 0 && serverUrl != ""
    ensures r.delivered <==> r.attempted && outcome.Sent?
    ensures r.attempted && outcome.SendFailed? ==> r.buffer == b
    ensures |batch| == 0 ==> r.buffer == b
    ensures |batch| > 0 && !(r.attempted && outcome.SendFailed?) ==> r.buffer == ReleaseKeys(b, batch)
    ensures Tracked(b, batch) && !(r.attempted && outcome.SendFailed?) ==> Tracked(r.buffer, [])
  {
    if |batch| == 0 then
      assert [] + b.records == b.records;
      FlushResult(b, false, [], false, false)
    else if serverUrl == "" then
      ReleaseKeepsTrackedIf(b, batch);
      FlushResult(ReleaseKeys(b, batch), false, batch, false, false)
    else match outcome
      case Sent =>
        ReleaseKeepsTrackedIf(b, batch);
        FlushResult(ReleaseKeys(b, batch), true, batch, true, false)
      case SendFailed(_) =>
        FlushResult(b, true, batch, false, false)
  }

  /** The final pass with nothing admitted during its send: no record is
      left pending. */
  function ShutdownFlush(b: Buffer, serverUrl: string, outcome: SendOutcome): (r: FlushResult)
    ensures r.buffer.records == []
    ensures r.departed == b.records
    ensures !r.raised
    ensures r.attempted <==> |b.records| > 0 && serverUrl != ""
    ensures r.delivered <==> r.attempted && outcome.Sent?
    ensures r.attempted && outcome.SendFailed? ==> r.buffer.keys == b.keys
    ensures Tracked(b, []) && !(r.attempted && outcome.SendFailed?) ==> Tracked(r.buffer, [])
  {
    var x := Extract(b);
    ExtractKeepsTrackedIf(b);
    ShutdownFinish(x.buffer, x.batch, serverUrl, outcome)
  }

  /** An adapter: `ExtractKeepsTracked` as an implication. */
  lemma ExtractKeepsTrackedIf(b: Buffer)
    ensures Tracked(b, []) ==> Tracked(Extract(b).buffer, Extract(b).batch)
  {
    if Tracked(b, []) {
      ExtractKeepsTracked(b);
    }
  }

  /** Spans exported while the final send is out: the final pass takes
      exactly the records pending when it began, and the ones admitted
      during the send — refused if they duplicate a record of the batch,
      whose keys are still tracked — stay pending after it, whatever the
      send's outcome. */
  lemma FinalPassLeavesLateExports(b: Buffer, during: seq<SpanRecord>, serverUrl: string, outcome: SendOutcome)
    requires Tracked(b, [])
    ensures var x := Extract(b);
      var mid := Export(x.buffer, during).buffer;
      var r := ShutdownFinish(mid, x.batch, serverUrl, outcome);
      && r.departed == b.records
      && r.buffer.records == Admit(b.keys, during).added
      && KeysOf(r.buffer.records) !! KeysOf(b.records)
  {
    var x := Extract(b);
    var added := Admit(b.keys, during).added;
    var mid := Export(x.buffer, during).buffer;
    assert mid.records == [] + added == added;
    assert b.keys == KeysOf([] + b.records);
    assert [] + b.records == b.records;
  }

  // ---------------------------------------------------------------------
  // The exporter under concurrent producers

  /** A record that left the exporter, and whether the server received it. */
  datatype Departure = Departure(record: SpanRecord, delivered: bool)

  function Records(ds: seq<Departure>): (r: seq<SpanRecord>)
    ensures |r| == |ds|
    ensures forall i :: 0 <= i < |ds| ==> r[i] == ds[i].record
  {
    seq(|ds|, i requires 0 <= i < |ds| => ds[i].record)
  }

  function Departures(rs: seq<SpanRecord>, delivered: bool): (r: seq<Departure>)
    ensures Records(r) == rs
    ensures forall i :: 0 <= i < |r| ==> r[i].delivered == delivered
  {
    seq(|rs|, i requires 0 <= i < |rs| => Departure(rs[i], delivered))
  }

  /** The exporter: its buffer, the batch held by the flush or final pass
      in progress (if any) and which of the two holds it, the shutdown
      flag, whether a failed final send has abandoned a batch with its keys
      still tracked, and — as bookkeeping for the theorems — every record
      ever admitted and every departure, in order. */
  datatype Exporter = Exporter(
    buffer: Buffer,
    inflight: Option<seq<SpanRecord>>,
    finalPass: bool,
    shutdownRequested: bool,
    keysLeaked: bool,
    admitted: seq<SpanRecord>,
    departures: seq<Departure>)

  /** The atomic steps that can interleave. A flush and the final pass of
      `shutdown` are each two steps around their send, which is made
      outside the buffer lock; the flush lock lets only one of them hold a
      batch at a time, so a step that would have to wait is modelled as not
      happening yet. */
  datatype Event =
    | ExportSpans(spans: seq<SpanRecord>)
    | BeginFlush
    | EndFlush(outcome: SendOutcome)
    | RequestShutdown
    | BeginFinalFlush
    | EndFinalFlush(outcome: SendOutcome)

  function InFlight(e: Exporter): seq<SpanRecord> {
    e.inflight.GetOr([])
  }

  function Start(b: Buffer): Exporter {
    Exporter(b, None, false, false, false, [], [])
  }

  function Step(e: Exporter, serverUrl: string, ev: Event): Exporter {
    match ev
    case ExportSpans(spans) =>
      var x := Export(e.buffer, spans);
      e.(buffer := x.buffer, admitted := e.admitted + Admit(e.buffer.keys, spans).added)
    case BeginFlush =>
      if e.inflight.Some? then e
      else
        var x := Extract(e.buffer);
        e.(buffer := x.buffer, inflight := Some(x.batch), finalPass := false)
    case EndFlush(outcome) =>
      if e.inflight.None? || e.finalPass then e
      else
        var r := FlushFinish(e.buffer, e.inflight.value, serverUrl, outcome, e.shutdownRequested);
        e.(buffer := r.buffer, inflight := None,
           departures := e.departures + Departures(r.departed, r.delivered))
    case RequestShutdown =>
      e.(shutdownRequested := true)
    case BeginFinalFlush =>
      if e.inflight.Some? then e
      else
        var x := Extract(e.buffer);
        e.(buffer := x.buffer, inflight := Some(x.batch), finalPass := true, shutdownRequested := true)
    case EndFinalFlush(outcome) =>
      if e.inflight.None? || !e.finalPass then e
      else
        var r := ShutdownFinish(e.buffer, e.inflight.value, serverUrl, outcome);
        e.(buffer := r.buffer, inflight := None, finalPass := false,
           keysLeaked := e.keysLeaked || (r.attempted && !r.delivered),
           departures := e.departures + Departures(r.departed, r.delivered))
  }

  function Run(e: Exporter, serverUrl: string, events: seq<Event>): Exporter
    decreases |events|
  {
    if |events| == 0 then e else Run(Step(e, serverUrl, events[0]), serverUrl, events[1..])
  }

  /** The records still held: the batch being sent, then the buffer. */
  function Live(e: Exporter): seq<SpanRecord> {
    InFlight(e) + e.buffer.records
  }

  /** Pending and in-flight records are distinct by key and all tracked. */
  predicate Sound(e: Exporter) {
    DistinctKeys(Live(e)) && KeysOf(Live(e)) <= e.buffer.keys
  }

  /** Exact tracking: unless a failed final send has abandoned a batch with
      its keys, the tracked keys are exactly the keys of the in-flight and
      pending records — no key leaked, so no span is refused for a record
      the exporter no longer holds. */
  predicate Exact(e: Exporter) {
    !e.keysLeaked ==> Tracked(e.buffer, InFlight(e))
  }

  /** Conservation: what departed, then what is in flight, then what is
      pending, is exactly what was pending at the start followed by
      everything admitted since — in that order. */
  predicate Conserves(e: Exporter, initial: seq<SpanRecord>) {
    Records(e.departures) + Live(e) == initial + e.admitted
  }

  lemma RecordsConcat(a: seq<Departure>, b: seq<Departure>)
    ensures Records(a + b) == Records(a) + Records(b)
  {
  }

  /** Every step keeps the exporter sound, keeps exact tracking, and
      conserves records. */
  lemma StepKeepsInvariants(e: Exporter, serverUrl: string, ev: Event, initial: seq<SpanRecord>)
    requires Sound(e) && Conserves(e, initial)
    ensures Sound(Step(e, serverUrl, ev)) && Conserves(Step(e, serverUrl, ev), initial)
    ensures Exact(e) ==> Exact(Step(e, serverUrl, ev))
  {
    match ev
    case ExportSpans(spans) => ExportKeepsInvariants(e, serverUrl, spans, initial);
    case BeginFlush => BeginKeepsInvariants(e, serverUrl, false, initial);
    case EndFlush(outcome) =>
      if e.inflight.Some? && !e.finalPass {
        EndFlushKeepsInvariants(e, serverUrl, outcome, initial);
      }
    case RequestShutdown =>
    case BeginFinalFlush => BeginKeepsInvariants(e, serverUrl, true, initial);
    case EndFinalFlush(outcome) =>
      if e.inflight.Some? && e.finalPass {
        EndFinalFlushKeepsInvariants(e, serverUrl, outcome, initial);
      }
  }

  lemma ExportKeepsInvariants(e: Exporter, serverUrl: string, spans: seq<SpanRecord>, initial: seq<SpanRecord>)
    requires Sound(e) && Conserves(e, initial)
    ensures Sound(Step(e, serverUrl, ExportSpans(spans)))
    ensures Conserves(Step(e, serverUrl, ExportSpans(spans)), initial)
    ensures Exact(e) ==> Exact(Step(e, serverUrl, ExportSpans(spans)))
  {
    var a := Admit(e.buffer.keys, spans);
    var x := Export(e.buffer, spans);
    var e' := e.(buffer := x.buffer, admitted := e.admitted + a.added);
    assert Step(e, serverUrl, ExportSpans(spans)) == e';
    AdmittedKeepsInvariants(e, x.buffer, a.added, initial);
    if Exact(e) && !e.keysLeaked {
      ExportKeepsTracked(e.buffer, InFlight(e), spans);
      assert InFlight(e') == InFlight(e);
    }
  }

  /** Appending freshly keyed records to the buffer, and to the admitted
      log, keeps both invariants. */
  lemma AdmittedKeepsInvariants(e: Exporter, buffer: Buffer, added: seq<SpanRecord>, initial: seq<SpanRecord>)
    requires Sound(e) && Conserves(e, initial)
    requires buffer.records == e.buffer.records + added
    requires DistinctKeys(added) && KeysOf(added) <= buffer.keys - e.buffer.keys && e.buffer.keys <= buffer.keys
    ensures Sound(e.(buffer := buffer, admitted := e.admitted + added))
    ensures Conserves(e.(buffer := buffer, admitted := e.admitted + added), initial)
  {
    var e' := e.(buffer := buffer, admitted := e.admitted + added);
    assert Live(e') == Live(e) + added;
    assert Records(e'.departures) + Live(e') == (Records(e.departures) + Live(e)) + added;
    AppendFreshKeepsSound(Live(e), e.buffer.keys, added, buffer.keys);
  }

  /** Appending records whose keys were untracked keeps the live records
      distinct and tracked. */
  lemma AppendFreshKeepsSound(live: seq<SpanRecord>, keys: set<SpanKey>, added: seq<SpanRecord>, keys': set<SpanKey>)
    requires DistinctKeys(live) && KeysOf(live) <= keys
    requires DistinctKeys(added) && KeysOf(added) <= keys' - keys && keys <= keys'
    ensures DistinctKeys(live + added) && KeysOf(live + added) <= keys'
  {
    KeysOfConcat(live, added);
    DistinctConcat(live, added);
  }

  /** The first half of a flush (`final` false) or of the final pass
      (`final` true): the pending records become the in-flight batch. */
  lemma BeginKeepsInvariants(e: Exporter, serverUrl: string, final: bool, initial: seq<SpanRecord>)
    requires Sound(e) && Conserves(e, initial)
    ensures var ev := if final then BeginFinalFlush else BeginFlush;
      && Sound(Step(e, serverUrl, ev)) && Conserves(Step(e, serverUrl, ev), initial)
      && (Exact(e) ==> Exact(Step(e, serverUrl, ev)))
  {
    var ev := if final then BeginFinalFlush else BeginFlush;
    if e.inflight.None? {
      var x := Extract(e.buffer);
      var e' := e.(buffer := x.buffer, inflight := Some(x.batch), finalPass := final,
                   shutdownRequested := e.shutdownRequested || final);
      assert Step(e, serverUrl, ev) == e';
      assert Live(e') == e.buffer.records + [] == Live(e);
      SameLiveKeepsInvariants(e, e', initial);
      if Exact(e) && !e.keysLeaked {
        assert InFlight(e) == [];
        ExtractKeepsTracked(e.buffer);
      }
    }
  }

  /** A step that only moves records between the buffer and the in-flight
      batch, keeping their order and the key set, keeps both invariants. */
  lemma SameLiveKeepsInvariants(e: Exporter, e': Exporter, initial: seq<SpanRecord>)
    requires Sound(e) && Conserves(e, initial)
    requires Live(e') == Live(e)
    requires e'.buffer.keys == e.buffer.keys && e'.departures == e.departures && e'.admitted == e.admitted
    ensures Sound(e') && Conserves(e', initial)
  {
  }

  /** The buffer a flush leaves behind is sound when the batch and the
      buffer it resumes on were sound together. */
  lemma FlushFinishKeepsValid(b: Buffer, batch: seq<SpanRecord>, serverUrl: string,
                              outcome: SendOutcome, shutdownRequested: bool)
    requires DistinctKeys(batch + b.records) && KeysOf(batch + b.records) <= b.keys
    ensures Valid(FlushFinish(b, batch, serverUrl, outcome, shutdownRequested).buffer)
  {
    DistinctSplit(batch, b.records);
    KeysOfConcat(batch, b.records);
    if |batch| > 0 && serverUrl != "" && outcome.SendFailed? {
      assert FlushFinish(b, batch, serverUrl, outcome, shutdownRequested).buffer == Restore(b, batch);
    } else if |batch| > 0 {
      assert FlushFinish(b, batch, serverUrl, outcome, shutdownRequested).buffer == ReleaseKeys(b, batch);
    }
  }

  /** Likewise for the buffer the final pass leaves behind. */
  lemma ShutdownFinishKeepsValid(b: Buffer, batch: seq<SpanRecord>, serverUrl: string, outcome: SendOutcome)
    requires DistinctKeys(batch + b.records) && KeysOf(batch + b.records) <= b.keys
    ensures Valid(ShutdownFinish(b, batch, serverUrl, outcome).buffer)
  {
    DistinctSplit(batch, b.records);
    KeysOfConcat(batch, b.records);
    if |batch| > 0 && (serverUrl == "" || outcome.Sent?) {
      assert ShutdownFinish(b, batch, serverUrl, outcome).buffer == ReleaseKeys(b, batch);
    }
  }

  /** Conservation carries over a step that moves records `moved` from
      the live part (in flight, then pending) to the departures. */
  lemma ConservesAcross(e: Exporter, e': Exporter, moved: seq<SpanRecord>, initial: seq<SpanRecord>)
    requires Conserves(e, initial) && e'.admitted == e.admitted
    requires Records(e'.departures) == Records(e.departures) + moved
    requires moved + Live(e') == Live(e)
    ensures Conserves(e', initial)
  {
    var d := Records(e.departures);
    assert (d + moved) + Live(e') == d + (moved + Live(e'));
  }

  lemma EndFlushKeepsInvariants(e: Exporter, serverUrl: string, outcome: SendOutcome, initial: seq<SpanRecord>)
    requires Sound(e) && Conserves(e, initial) && e.inflight.Some? && !e.finalPass
    ensures Sound(Step(e, serverUrl, EndFlush(outcome)))
    ensures Conserves(Step(e, serverUrl, EndFlush(outcome)), initial)
    ensures Exact(e) ==> Exact(Step(e, serverUrl, EndFlush(outcome)))
  {
    var batch := e.inflight.value;
    var b := e.buffer;
    var r := FlushFinish(b, batch, serverUrl, outcome, e.shutdownRequested);
    var e' := e.(buffer := r.buffer, inflight := None,
                 departures := e.departures + Departures(r.departed, r.delivered));
    assert Step(e, serverUrl, EndFlush(outcome)) == e';
    RecordsConcat(e.departures, Departures(r.departed, r.delivered));
    assert Live(e') == r.buffer.records;
    assert Live(e) == batch + b.records;
    ConservesAcross(e, e', r.departed, initial);
    FlushFinishKeepsValid(b, batch, serverUrl, outcome, e.shutdownRequested);
    assert InFlight(e') == [] && InFlight(e) == batch;
  }

  lemma EndFinalFlushKeepsInvariants(e: Exporter, serverUrl: string, outcome: SendOutcome, initial: seq<SpanRecord>)
    requires Sound(e) && Conserves(e, initial) && e.inflight.Some? && e.finalPass
    ensures Sound(Step(e, serverUrl, EndFinalFlush(outcome)))
    ensures Conserves(Step(e, serverUrl, EndFinalFlush(outcome)), initial)
    ensures Exact(e) ==> Exact(Step(e, serverUrl, EndFinalFlush(outcome)))
  {
    var batch := e.inflight.value;
    var b := e.buffer;
    var r := ShutdownFinish(b, batch, serverUrl, outcome);
    var e' := e.(buffer := r.buffer, inflight := None, finalPass := false,
                 keysLeaked := e.keysLeaked || (r.attempted && !r.delivered),
                 departures := e.departures + Departures(r.departed, r.delivered));
    assert Step(e, serverUrl, EndFinalFlush(outcome)) == e';
    RecordsConcat(e.departures, Departures(r.departed, r.delivered));
    assert Live(e') == b.records;
    assert Live(e) == batch + b.records;
    ConservesAcross(e, e', batch, initial);
    ShutdownFinishKeepsValid(b, batch, serverUrl, outcome);
    assert InFlight(e') == [] && InFlight(e) == batch;
  }

  /** The main theorem: from any sound buffer, every interleaving of
      exports, flush halves, shutdown requests and final-pass halves keeps
      pending and in-flight records distinct and tracked, and loses,
      duplicates or reorders no record: departures, then the in-flight
      batch, then the buffer, spell out the initial buffer followed by all
      admitted records. Started from exact tracking, tracking stays exact
      until a failed final send abandons its batch. */
  lemma {:induction false} RunKeepsInvariants(e: Exporter, serverUrl: string, events: seq<Event>, initial: seq<SpanRecord>)
    requires Sound(e) && Conserves(e, initial)
    ensures Sound(Run(e, serverUrl, events)) && Conserves(Run(e, serverUrl, events), initial)
    ensures Exact(e) ==> Exact(Run(e, serverUrl, events))
    decreases |events|
  {
    if |events| > 0 {
      StepKeepsInvariants(e, serverUrl, events[0], initial);
      RunKeepsInvariants(Step(e, serverUrl, events[0]), serverUrl, events[1..], initial);
    }
  }

  /** Starting from a sound buffer the invariants hold from the outset, and
      from an exactly tracked one so does exact tracking. */
  lemma StartIsSound(b: Buffer)
    requires Valid(b)
    ensures Sound(Start(b)) && Conserves(Start(b), b.records)
    ensures b.keys == KeysOf(b.records) ==> Exact(Start(b))
  {
    assert Live(Start(b)) == b.records;
    assert InFlight(Start(b)) == [];
    assert [] + b.records == b.records;
    assert Records([]) == [];
  }

  /** Only a failed final send leaks keys. */
  lemma StepLeaksOnlyOnFailedFinalSend(e: Exporter, serverUrl: string, ev: Event)
    ensures !e.keysLeaked && Step(e, serverUrl, ev).keysLeaked ==>
      ev.EndFinalFlush? && ev.outcome.SendFailed? && serverUrl != "" && |InFlight(e)| > 0
  {
  }

  /** Every departure reached the server. */
  predicate AllDelivered(ds: seq<Departure>) {
    forall i :: 0 <= i < |ds| ==> ds[i].delivered
  }

  lemma StepKeepsDelivered(e: Exporter, serverUrl: string, ev: Event)
    requires serverUrl != "" && !ev.EndFinalFlush? && AllDelivered(e.departures)
    ensures AllDelivered(Step(e, serverUrl, ev).departures)
  {
    if ev.EndFlush? && e.inflight.Some? && !e.finalPass {
      var r := FlushFinish(e.buffer, e.inflight.value, serverUrl, ev.outcome, e.shutdownRequested);
      var extra := Departures(r.departed, r.delivered);
      assert r.departed == [] || r.delivered;
      assert AllDelivered(extra);
      var ds := e.departures + extra;
      assert forall i :: 0 <= i < |ds| ==> ds[i] == if i < |e.departures| then e.departures[i] else extra[i - |e.departures|];
    }
  }

  /** Only the two deliberate paths lose telemetry: with a server
      configured and no final pass settling, every record that leaves the
      exporter has been delivered. */
  lemma {:induction false} ConfiguredRunDeliversAll(e: Exporter, serverUrl: string, events: seq<Event>)
    requires serverUrl != ""
    requires AllDelivered(e.departures)
    requires forall i :: 0 <= i < |events| ==> !events[i].EndFinalFlush?
    ensures AllDelivered(Run(e, serverUrl, events).departures)
    decreases |events|
  {
    if |events| > 0 {
      StepKeepsDelivered(e, serverUrl, events[0]);
      ConfiguredRunDeliversAll(Step(e, serverUrl, events[0]), serverUrl, events[1..]);
    }
  }
}

=== FILE: otel_endpoint.dfy ===
/** The two configuration parsers of the OTLP endpoint test tool: the
    comma-separated `key=value` header list read from
    `OTEL_EXPORTER_OTLP_HEADERS`, and the collector base address read from
    `OTEL_EXPORTER_OTLP_ENDPOINT`. The environment lookup itself is a
    parameter: `None` stands for an unset variable. */
module OtelEndpoint {
  import opened Wrappers
  import opened Strings

  /** What one comma-separated segment contributes: nothing when its
      stripped text holds no `=`, else the stripped text before the first
      `=` as key and the stripped text after it as value. */
  function SegmentPair(segment: string): (r: Option<(string, string)>)
    ensures r.None? <==> '=' !in Strip(segment)
    ensures r.Some? ==> '=' !in r.value.0 && IsStripped(r.value.0) && IsStripped(r.value.1)
  {
    var p := Strip(segment);
    match IndexOf(p, '=')
    case None => None
    case Some(i) => Some((Strip(p[..i]), Strip(p[i + 1..])))
  }

  /** One segment's effect on the headers parsed so far. */
  function AddSegment(acc: map<string, string>, segment: string): map<string, string> {
    AddPair(acc, SegmentPair(segment))
  }

  function AddPair(acc: map<string, string>, pair: Option<(string, string)>): map<string, string> {
    match pair
    case None => acc
    case Some(kv) => acc[kv.0 := kv.1]
  }

  /** Adds the segments' pairs to `acc` from left to right, so that a
      later occurrence of a key overwrites an earlier one. */
  function AddPairs(acc: map<string, string>, segments: seq<string>): map<string, string>
    decreases |segments|
  {
    if |segments| == 0 then acc
    else AddPairs(AddSegment(acc, segments[0]), segments[1..])
  }

  /** Reference reading of a header list, scanning from the right: the
      value of the LAST segment whose key is `key`. */
  function LastValue(segments: seq<string>, key: string): Option<string>
    decreases |segments|
  {
    if |segments| == 0 then None
    else
      var last := SegmentPair(segments[|segments| - 1]);
      if last.Some? && last.value.0 == key then Some(last.value.1)
      else LastValue(segments[..|segments| - 1], key)
  }

  lemma {:induction false} AddPairsSnoc(acc: map<string, string>, segments: seq<string>, s: string)
    ensures AddPairs(acc, segments + [s]) == AddSegment(AddPairs(acc, segments), s)
    decreases |segments|
  {
    if |segments| == 0 {
      assert [s][1..] == [];
    } else {
      assert (segments + [s])[1..] == segments[1..] + [s];
      AddPairsSnoc(AddSegment(acc, segments[0]), segments[1..], s);
    }
  }

  /** Folding the segments left to right agrees with the right-to-left
      reference: a key holds the value of its last segment, or its value in
      `acc` when no segment names it. */
  lemma {:induction false} AddPairsIsLastValue(acc: map<string, string>, segments: seq<string>, key: string)
    ensures Agrees(AddPairs(acc, segments), acc, LastValue(segments, key), key)
    decreases |segments|
  {
    if |segments| > 0 {
      var init := segments[..|segments| - 1];
      var last := segments[|segments| - 1];
      LastValueSnoc(segments, key);
      AddPairsLast(acc, segments);
      AddPairsIsLastValue(acc, init, key);
      AddPairAt(AddPairs(acc, init), SegmentPair(last), key);
    }
  }

  /** How a header map `m` built on top of `acc` relates to the value
      `last` the reference reading finds for `key`. */
  predicate Agrees(m: map<string, string>, acc: map<string, string>, last: Option<string>, key: string) {
    match last
    case Some(v) => key in m && m[key] == v
    case None => (key in m <==> key in acc) && (key in acc ==> m[key] == acc[key])
  }

  lemma AddPairsLast(acc: map<string, string>, segments: seq<string>)
    requires |segments| > 0
    ensures AddPairs(acc, segments) ==
      AddSegment(AddPairs(acc, segments[..|segments| - 1]), segments[|segments| - 1])
  {
    assert segments == segments[..|segments| - 1] + [segments[|segments| - 1]];
    AddPairsSnoc(acc, segments[..|segments| - 1], segments[|segments| - 1]);
  }

  /** The reference reading looks at the last segment first. */
  lemma LastValueSnoc(segments: seq<string>, key: string)
    requires |segments| > 0
    ensures var sp := SegmentPair(segments[|segments| - 1]);
      LastValue(segments, key) ==
        if sp.Some? && sp.value.0 == key then Some(sp.value.1)
        else LastValue(segments[..|segments| - 1], key)
  {
  }

  /** One pair sets `key` when it names it and leaves it alone otherwise. */
  lemma AddPairAt(acc: map<string, string>, pair: Option<(string, string)>, key: string)
    ensures var m := AddPair(acc, pair);
      if pair.Some? && pair.value.0 == key then key in m && m[key] == pair.value.1
      else (key in m <==> key in acc) && (key in acc ==> m[key] == acc[key])
  {
  }

  /** `parse_headers`: `None` or the empty string give no headers;
      otherwise the segments between commas are added left to right. */
  function ParseHeaders(headers: Option<string>): (r: map<string, string>)
    ensures headers.None? || headers.value == "" ==> r == map[]
  {
    if headers.None? || headers.value == "" then map[]
    else AddPairs(map[], Split(headers.value, ','))
  }

  /** What `parse_headers` means: a key is present iff some segment
      holding `=` names it, and then it maps to the value of the LAST such
      segment. */
  lemma ParseHeadersLastWins(headers: string, key: string)
    requires headers != ""
    ensures var r := ParseHeaders(Some(headers));
      var last := LastValue(Split(headers, ','), key);
      (key in r <==> last.Some?) && (key in r ==> r[key] == last.value)
  {
    var segs := Split(headers, ',');
    var m := AddPairs(map[], segs);
    assert ParseHeaders(Some(headers)) == m;
    AddPairsIsLastValue(map[], segs, key);
    assert Agrees(m, map[], LastValue(segs, key), key);
  }

  /** Splitting on the FIRST `=` only: a key without `=`, an optional
      whitespace run on either side of the `=`, and a value that may itself
      contain `=` come back as exactly that key and value. */
  lemma SegmentOfPair(a: string, key: string, ws1: string, ws2: string, value: string, b: string)
    requires AllIn(a, Whitespace) && AllIn(ws1, Whitespace) && AllIn(ws2, Whitespace) && AllIn(b, Whitespace)
    requires IsStripped(key) && IsStripped(value) && '=' !in key
    requires |key| > 0 || |ws1| == 0
    requires |value| > 0 || |ws2| == 0
    ensures SegmentPair(a + key + ws1 + "=" + ws2 + value + b) == Some((key, value))
  {
    var seg := a + key + ws1 + "=" + ws2 + value + b;
    assert seg == a + ((key + ws1) + "=" + (ws2 + value)) + b;
    SegmentPairOfParts(a, key, ws1, ws2, value, b, seg);
    StripAroundParts(key, ws1, ws2, value);
  }

  lemma SegmentPairOfParts(a: string, key: string, ws1: string, ws2: string, value: string, b: string, seg: string)
    requires AllIn(a, Whitespace) && AllIn(ws1, Whitespace) && AllIn(b, Whitespace)
    requires IsStripped(key) && IsStripped(value) && '=' !in key
    requires |key| > 0 || |ws1| == 0
    requires |value| > 0 || |ws2| == 0
    requires seg == a + ((key + ws1) + "=" + (ws2 + value)) + b
    ensures SegmentPair(seg) == Some((Strip(key + ws1), Strip(ws2 + value)))
  {
    var x := key + ws1;
    var y := ws2 + value;
    StrippedAroundEquals(key, ws1, ws2, value);
    StripSurrounded(a, x + "=" + y, b);
    NoEqualsInKey(key, ws1);
    SegmentPairAt(seg, x, y);
  }

  lemma StripAroundParts(key: string, ws1: string, ws2: string, value: string)
    requires AllIn(ws1, Whitespace) && AllIn(ws2, Whitespace)
    requires IsStripped(key) && IsStripped(value)
    ensures Strip(key + ws1) == key && Strip(ws2 + value) == value
  {
    StripSurrounded("", key, ws1);
    assert "" + key + ws1 == key + ws1;
    StripSurrounded(ws2, value, "");
    assert ws2 + value + "" == ws2 + value;
  }

  /** The whitespace-free case of `SegmentOfPair`: `k=v` yields `(k, v)`. */
  lemma SegmentOfPlainPair(key: string, value: string)
    requires IsStripped(key) && IsStripped(value) && '=' !in key
    ensures SegmentPair(key + "=" + value) == Some((key, value))
  {
    var m := key + "=" + value;
    assert m[0] == if |key| > 0 then key[0] else '=';
    assert m[|m| - 1] == if |value| > 0 then value[|value| - 1] else '=';
    assert '=' !in Whitespace;
    StrippedIsFixed(m);
    SegmentPairAt(m, key, value);
    StrippedIsFixed(key);
    StrippedIsFixed(value);
  }

  lemma StrippedAroundEquals(key: string, ws1: string, ws2: string, value: string)
    requires IsStripped(key) && IsStripped(value)
    requires |key| > 0 || |ws1| == 0
    requires |value| > 0 || |ws2| == 0
    ensures IsStripped((key + ws1) + "=" + (ws2 + value))
  {
    var m := (key + ws1) + "=" + (ws2 + value);
    assert m[0] == if |key| > 0 then key[0] else '=';
    assert m[|m| - 1] == if |value| > 0 then value[|value| - 1] else '=';
  }

  lemma NoEqualsInKey(key: string, ws: string)
    requires AllIn(ws, Whitespace) && '=' !in key
    ensures '=' !in key + ws
  {
    assert '=' !in Whitespace;
  }

  /** A segment whose stripped text is `x=y` with no `=` in `x` yields the
      stripped `x` and `y`. */
  lemma SegmentPairAt(segment: string, x: string, y: string)
    requires '=' !in x
    ensures Strip(segment) == x + "=" + y ==> SegmentPair(segment) == Some((Strip(x), Strip(y)))
  {
    var m := x + "=" + y;
    assert m[..|x|] == x && m[|x|] == '=';
    assert IndexOf(m, '=') == Some(|x|);
    assert m[|x| + 1..] == y;
  }

  /** A header list written out from pairs: `k1=v1,k2=v2,...`. */
  function Render(pairs: seq<(string, string)>): string {
    Join(Segments(pairs), ',')
  }

  function Segments(pairs: seq<(string, string)>): (r: seq<string>)
    ensures |r| == |pairs|
    ensures forall i :: 0 <= i < |r| ==> r[i] == pairs[i].0 + "=" + pairs[i].1
  {
    if |pairs| == 0 then [] else [pairs[0].0 + "=" + pairs[0].1] + Segments(pairs[1..])
  }

  /** The map a caller means by a pair list: later pairs overwrite earlier ones. */
  function PairsToMap(acc: map<string, string>, pairs: seq<(string, string)>): map<string, string>
    decreases |pairs|
  {
    if |pairs| == 0 then acc else PairsToMap(acc[pairs[0].0 := pairs[0].1], pairs[1..])
  }

  /** A pair whose key and value survive rendering and parsing: no commas,
      no `=` in the key, nothing to strip. */
  predicate WellFormedPair(kv: (string, string)) {
    ',' !in kv.0 && ',' !in kv.1 && '=' !in kv.0 && IsStripped(kv.0) && IsStripped(kv.1)
  }

  lemma {:induction false} AddPairsOfSegments(acc: map<string, string>, pairs: seq<(string, string)>)
    requires forall i :: 0 <= i < |pairs| ==> WellFormedPair(pairs[i])
    ensures AddPairs(acc, Segments(pairs)) == PairsToMap(acc, pairs)
    decreases |pairs|
  {
    if |pairs| > 0 {
      var (k, v) := pairs[0];
      SegmentOfPlainPair(k, v);
      assert Segments(pairs)[1..] == Segments(pairs[1..]);
      AddPairsOfSegments(acc[k := v], pairs[1..]);
    }
  }

  /** Round trip: parsing the rendering of well-formed pairs yields the
      pairs' map, the last value of a repeated key winning. */
  lemma ParseRender(pairs: seq<(string, string)>)
    requires forall i :: 0 <= i < |pairs| ==> WellFormedPair(pairs[i])
    ensures ParseHeaders(Some(Render(pairs))) == PairsToMap(map[], pairs)
  {
    if |pairs| == 0 {
      assert Render(pairs) == "";
    } else {
      var h := Render(pairs);
      RenderNonEmpty(pairs);
      SplitRender(pairs);
      AddPairsOfSegments(map[], pairs);
      calc {
        ParseHeaders(Some(h));
        AddPairs(map[], Split(h, ','));
        AddPairs(map[], Segments(pairs));
      }
    }
  }

  /** Splitting a rendering on `,` gives back its segments. */
  lemma SplitRender(pairs: seq<(string, string)>)
    requires |pairs| > 0
    requires forall i :: 0 <= i < |pairs| ==> WellFormedPair(pairs[i])
    ensures Split(Render(pairs), ',') == Segments(pairs)
  {
    NoCommaInSegments(pairs);
    SplitJoin(Segments(pairs), ',');
  }

  /** A non-empty pair list renders to a non-empty text: its first
      segment holds at least the `=`. */
  lemma RenderNonEmpty(pairs: seq<(string, string)>)
    requires |pairs| > 0
    ensures Render(pairs) != ""
  {
    var segs := Segments(pairs);
    assert |segs[0]| > 0;
    assert segs[0] <= Render(pairs);
  }

  lemma NoCommaInSegments(pairs: seq<(string, string)>)
    requires forall i :: 0 <= i < |pairs| ==> WellFormedPair(pairs[i])
    ensures forall i :: 0 <= i < |Segments(pairs)| ==> ',' !in Segments(pairs)[i]
  {
    var segs := Segments(pairs);
    forall i | 0 <= i < |segs| ensures ',' !in segs[i] {
      assert segs[i] == pairs[i].0 + "=" + pairs[i].1;
    }
  }

  /** The path the OTLP HTTP exporter appends itself. */
  const TracesSuffix: string := "/v1/traces"

  /** `get_endpoint`: no endpoint when the variable is unset or empty;
      otherwise the value with every trailing `/` removed and then one
      trailing `/v1/traces` removed. The result is a prefix of the value
      and what was cut off is either slashes only (and nothing more could
      be cut), or `/v1/traces` followed by slashes. */
  function GetEndpoint(env: Option<string>): (r: Option<string>)
    ensures r.None? <==> env.None? || env.value == ""
    ensures r.Some? ==> r.value <= env.value
    ensures r.Some? ==>
      var rest := env.value[|r.value|..];
      || (AllIn(rest, {'/'}) && !EndsWith(r.value, TracesSuffix) &&
          (|r.value| == 0 || r.value[|r.value| - 1] != '/'))
      || (TracesSuffix <= rest && AllIn(rest[|TracesSuffix|..], {'/'}))
  {
    if env.None? || env.value == "" then None
    else
      var s := env.value;
      var e := TrimEnd(s, {'/'});
      if EndsWith(e, TracesSuffix) then
        var r := e[..|e| - |TracesSuffix|];
        assert s[|r|..] == TracesSuffix + s[|e|..];
        Some(r)
      else Some(e)
  }

  /** The base address is recovered from any of its decorated forms:
      `base`, `base/`, `base/v1/traces`, `base/v1/traces//`, ... */
  lemma EndpointOfBase(base: string, slashes: string, withSuffix: bool)
    requires AllIn(slashes, {'/'})
    requires |base| > 0 && base[|base| - 1] != '/' && !EndsWith(base, TracesSuffix)
    ensures GetEndpoint(Some(base + (if withSuffix then TracesSuffix else "") + slashes)) == Some(base)
  {
    var u := base + (if withSuffix then TracesSuffix else "");
    var s := u + slashes;
    assert u[|u| - 1] != '/';
    TrimEndSuffix(u, slashes, {'/'});
    assert TrimEnd(s, {'/'}) == u;
    assert s != "";
    if withSuffix {
      assert u[|u| - |TracesSuffix|..] == TracesSuffix;
      assert EndsWith(u, TracesSuffix);
      assert u[..|u| - |TracesSuffix|] == base;
      assert GetEndpoint(Some(s)) == Some(base);
    } else {
      assert u == base;
      assert GetEndpoint(Some(s)) == Some(base);
    }
  }
}

=== FILE: span_buffer.dfy ===
/** The exporter's pending-span store: an ordered buffer of serialized span
    records plus the set of `(traceId, spanId)` keys used to refuse a span
    that is already pending. Each operation below is one critical section
    of the exporter's buffer lock, so each is one atomic transition. */
module SpanBuffer {
  import opened Wrappers

  /** A timestamp split into whole seconds and the nanosecond remainder. */
  datatype TimeTuple = TimeTuple(seconds: int, nanos: int)

  /** The fields of a serialized span that the buffer logic looks at; the
      remaining fields of the record are carried along untouched. */
  datatype SpanRecord = SpanRecord(
    traceId: string,
    spanId: string,
    name: string,
    startTime: TimeTuple,
    endTime: Option<TimeTuple>)

  /** The deduplication key of a record. */
  datatype SpanKey = SpanKey(traceId: string, spanId: string)

  function Key(r: SpanRecord): SpanKey {
    SpanKey(r.traceId, r.spanId)
  }

  function KeysOf(rs: seq<SpanRecord>): set<SpanKey> {
    set i | 0 <= i < |rs| :: Key(rs[i])
  }

  /** No two records share a key. */
  predicate DistinctKeys(rs: seq<SpanRecord>) {
    forall i, j :: 0 <= i < j < |rs| ==> Key(rs[i]) != Key(rs[j])
  }

  /** `a` is `b` with some elements left out, the rest in their order. */
  ghost predicate IsSubsequence<T>(a: seq<T>, b: seq<T>)
    decreases |b|
  {
    |a| == 0 ||
    (|b| > 0 && ((a[0] == b[0] && IsSubsequence(a[1..], b[1..])) || IsSubsequence(a, b[1..])))
  }

  datatype Buffer = Buffer(records: seq<SpanRecord>, keys: set<SpanKey>)

  const Empty := Buffer([], {})

  /** The buffer's own invariant: its records are pairwise distinct by key
      and every one of their keys is tracked. The key set may hold more:
      the keys of a batch that is being sent stay tracked until the send
      is settled. */
  predicate Valid(b: Buffer) {
    DistinctKeys(b.records) && KeysOf(b.records) <= b.keys
  }

  /** The stronger invariant that holds while `inflight` is the batch
      being sent: pending and in-flight records are pairwise distinct, and
      the key set is exactly their keys — no key is leaked, none missing. */
  predicate Tracked(b: Buffer, inflight: seq<SpanRecord>) {
    DistinctKeys(inflight + b.records) && b.keys == KeysOf(inflight + b.records)
  }

  /** What one `export` call admits. */
  datatype Admission = Admission(added: seq<SpanRecord>, keys: set<SpanKey>, duplicates: nat)

  /** The admission loop of `export`: scanning the spans in order, a span
      whose key is tracked (before the call, or by an earlier span of the
      same call) is counted as a duplicate; any other is admitted and its
      key tracked. The admitted records are the input with the duplicates
      left out, in input order; their keys are exactly the keys that were
      not tracked before. */
  function Admit(keys: set<SpanKey>, spans: seq<SpanRecord>): (r: Admission)
    ensures r.keys == keys + KeysOf(spans)
    ensures |r.added| + r.duplicates == |spans|
    ensures KeysOf(r.added) == r.keys - keys
    ensures DistinctKeys(r.added)
    ensures IsSubsequence(r.added, spans)
    decreases |spans|
  {
    if |spans| == 0 then Admission([], keys, 0)
    else
      var k := Key(spans[0]);
      assert KeysOf(spans) == {k} + KeysOf(spans[1..]) by {
        assert spans == [spans[0]] + spans[1..];
        KeysOfConcat([spans[0]], spans[1..]);
        KeysOfSingleton(spans[0]);
      }
      if k in keys then
        var rest := Admit(keys, spans[1..]);
        Admission(rest.added, rest.keys, rest.duplicates + 1)
      else
        var rest := Admit(keys + {k}, spans[1..]);
        var added := [spans[0]] + rest.added;
        assert KeysOf(added) == {k} + KeysOf(rest.added) by {
          KeysOfConcat([spans[0]], rest.added);
          KeysOfSingleton(spans[0]);
        }
        Admission(added, rest.keys, rest.duplicates)
  }

  /** The reference reading of the admission rule, scanning the call from
      its end: its last span is admitted exactly when that span's key is
      neither tracked before the call nor the key of an earlier span of the
      call. So of several spans sharing a key only the first gets in. */
  function FirstOccurrences(keys: set<SpanKey>, spans: seq<SpanRecord>): seq<SpanRecord>
    decreases |spans|
  {
    if |spans| == 0 then []
    else
      var init := spans[..|spans| - 1];
      var last := spans[|spans| - 1];
      FirstOccurrences(keys, init) + (if Key(last) in keys + KeysOf(init) then [] else [last])
  }

  /** Admitting one more span at the end of a call: it joins the admitted
      records exactly when its key is new to the keys tracked so far. */
  lemma {:induction false} AdmitSnoc(keys: set<SpanKey>, s: seq<SpanRecord>, x: SpanRecord)
    ensures Admit(keys, s + [x]).added == Admit(keys, s).added + (if Key(x) in keys + KeysOf(s) then [] else [x])
    decreases |s|
  {
    var sx := s + [x];
    if |s| == 0 {
      assert sx == [x] && sx[1..] == [];
      assert KeysOf(s) == {};
    } else {
      var k := Key(s[0]);
      assert sx[0] == s[0] && sx[1..] == s[1..] + [x];
      assert KeysOf(s) == {k} + KeysOf(s[1..]) by {
        assert s == [s[0]] + s[1..];
        KeysOfConcat([s[0]], s[1..]);
        KeysOfSingleton(s[0]);
      }
      if k in keys {
        AdmitSnoc(keys, s[1..], x);
      } else {
        AdmitSnoc(keys + {k}, s[1..], x);
        var tail := Admit(keys + {k}, s[1..]).added;
        var extra := if Key(x) in keys + KeysOf(s) then [] else [x];
        assert [s[0]] + (tail + extra) == ([s[0]] + tail) + extra;
      }
    }
  }

  /** The admission loop admits exactly the first occurrence of every key
      that was not tracked before the call, in input order. */
  lemma {:induction false} AdmitTakesFirstOccurrences(keys: set<SpanKey>, spans: seq<SpanRecord>)
    ensures Admit(keys, spans).added == FirstOccurrences(keys, spans)
    decreases |spans|
  {
    if |spans| > 0 {
      var init := spans[..|spans| - 1];
      var last := spans[|spans| - 1];
      assert spans == init + [last];
      AdmitSnoc(keys, init, last);
      AdmitTakesFirstOccurrences(keys, init);
    }
  }

  /** The result code `export` hands back to the OpenTelemetry SDK. */
  datatype ExportCode = ExportSuccess | ExportFailure

  datatype ExportResult = ExportResult(buffer: Buffer, duplicates: nat, code: ExportCode)

  /** `export`: an empty call changes nothing; otherwise the admitted
      records are appended behind everything already pending (the old
      buffer stays a prefix) and every key of the call ends up tracked. The
      buffer invariant is kept. Every call, empty or not and whatever it
      refused, reports success. */
  function Export(b: Buffer, spans: seq<SpanRecord>): (r: ExportResult)
    ensures r.code == ExportSuccess
    ensures |spans| == 0 ==> r.buffer == b && r.duplicates == 0
    ensures b.records <= r.buffer.records
    ensures r.buffer.keys == b.keys + KeysOf(spans)
    ensures r.buffer.records == b.records + Admit(b.keys, spans).added
    ensures Valid(b) ==> Valid(r.buffer)
  {
    if |spans| == 0 then ExportResult(b, 0, ExportSuccess)
    else
      var a := Admit(b.keys, spans);
      var records := b.records + a.added;
      assert Valid(b) ==> DistinctKeys(records) by {
        if Valid(b) {
          DistinctConcat(b.records, a.added);
        }
      }
      assert KeysOf(records) == KeysOf(b.records) + KeysOf(a.added) by {
        KeysOfConcat(b.records, a.added);
      }
      ExportResult(Buffer(records, a.keys), a.duplicates, ExportSuccess)
  }

  datatype Extraction = Extraction(buffer: Buffer, batch: seq<SpanRecord>)

  /** `_extract_and_remove_spans_from_buffer`: the whole buffer in order,
      leaving it empty; the key set is not touched. */
  function Extract(b: Buffer): (r: Extraction)
    ensures r.batch == b.records && r.buffer.records == [] && r.buffer.keys == b.keys
  {
    Extraction(Buffer([], b.keys), b.records)
  }

  /** `_remove_span_keys_from_tracking`: forgets the keys of `batch`. */
  function ReleaseKeys(b: Buffer, batch: seq<SpanRecord>): (r: Buffer)
    ensures r.records == b.records
    ensures forall k :: k in r.keys <==> k in b.keys && k !in KeysOf(batch)
  {
    Buffer(b.records, b.keys - KeysOf(batch))
  }

  /** `_prepend_spans_to_buffer`: puts `batch` back in front of whatever
      was admitted meanwhile and rebuilds the key set from the result, so
      the keys are exactly those of the pending records. */
  function Restore(b: Buffer, batch: seq<SpanRecord>): (r: Buffer)
    ensures r.records == batch + b.records
    ensures r.keys == KeysOf(r.records)
    ensures DistinctKeys(batch + b.records) ==> Valid(r) && Tracked(r, [])
  {
    assert [] + (batch + b.records) == batch + b.records;
    Buffer(batch + b.records, KeysOf(batch + b.records))
  }

  /** `_clear_buffer`: empties records and keys. */
  function ClearAll(b: Buffer): (r: Buffer)
    ensures r.records == [] && r.keys == {}
    ensures Valid(r) && Tracked(r, [])
  {
    Empty
  }

  lemma KeysOfSingleton(x: SpanRecord)
    ensures KeysOf([x]) == {Key(x)}
  {
    assert [x][0] == x;
  }

  lemma KeysOfConcat(a: seq<SpanRecord>, b: seq<SpanRecord>)
    ensures KeysOf(a + b) == KeysOf(a) + KeysOf(b)
  {
    var ab := a + b;
    forall k | k in KeysOf(a) ensures k in KeysOf(ab) {
      var i :| 0 <= i < |a| && Key(a[i]) == k;
      assert ab[i] == a[i];
    }
    forall k | k in KeysOf(ab) ensures k in KeysOf(a) + KeysOf(b) {
      var i :| 0 <= i < |ab| && Key(ab[i]) == k;
      if i >= |a| {
        assert ab[i] == b[i - |a|];
      }
    }
    forall k | k in KeysOf(b) ensures k in KeysOf(ab) {
      var i :| 0 <= i < |b| && Key(b[i]) == k;
      assert ab[|a| + i] == b[i];
    }
  }

  lemma DistinctConcat(a: seq<SpanRecord>, b: seq<SpanRecord>)
    requires DistinctKeys(a) && DistinctKeys(b)
    requires KeysOf(a) !! KeysOf(b)
    ensures DistinctKeys(a + b)
  {
    var ab := a + b;
    forall i, j | 0 <= i < j < |ab| ensures Key(ab[i]) != Key(ab[j]) {
      if i < |a| && j >= |a| {
        assert Key(ab[i]) in KeysOf(a);
        assert ab[j] == b[j - |a|];
        assert Key(ab[j]) in KeysOf(b);
      } else if i >= |a| {
        assert ab[i] == b[i - |a|] && ab[j] == b[j - |a|];
      }
    }
  }

  lemma DistinctSplit(a: seq<SpanRecord>, b: seq<SpanRecord>)
    requires DistinctKeys(a + b)
    ensures DistinctKeys(a) && DistinctKeys(b)
    ensures KeysOf(a) !! KeysOf(b)
  {
    var ab := a + b;
    assert forall i :: 0 <= i < |a| ==> ab[i] == a[i];
    assert forall i :: 0 <= i < |b| ==> ab[|a| + i] == b[i];
  }

  /** Admission during a send: records admitted while a batch is in flight
      are refused if they duplicate a pending OR an in-flight record, so the
      exact tracking of pending plus in-flight records survives. */
  lemma ExportKeepsTracked(b: Buffer, inflight: seq<SpanRecord>, spans: seq<SpanRecord>)
    requires Tracked(b, inflight)
    ensures Tracked(Export(b, spans).buffer, inflight)
  {
    var a := Admit(b.keys, spans);
    var r := Export(b, spans).buffer;
    if |spans| > 0 {
      assert inflight + r.records == (inflight + b.records) + a.added;
      DistinctConcat(inflight + b.records, a.added);
      KeysOfConcat(inflight + b.records, a.added);
    }
  }

  /** Extraction hands the whole pending buffer to the sender: what was
      exactly tracked as pending is now exactly tracked as in flight. */
  lemma ExtractKeepsTracked(b: Buffer)
    requires Tracked(b, [])
    ensures Tracked(Extract(b).buffer, Extract(b).batch)
  {
    assert [] + b.records == b.records;
    assert Extract(b).batch + [] == b.records;
  }

  /** After a settled send (or a deliberate drop) the batch's keys are
      released and only the keys of the records still pending remain. */
  lemma ReleaseKeepsTracked(b: Buffer, batch: seq<SpanRecord>)
    requires Tracked(b, batch)
    ensures Tracked(ReleaseKeys(b, batch), [])
  {
    DistinctSplit(batch, b.records);
    KeysOfConcat(batch, b.records);
    assert [] + b.records == b.records;
  }

  /** After a failed send the batch is back at the head of the buffer, ahead
      of everything admitted meanwhile, and tracking is exact again. */
  lemma RestoreKeepsTracked(b: Buffer, batch: seq<SpanRecord>)
    requires Tracked(b, batch)
    ensures Tracked(Restore(b, batch), [])
    ensures Restore(b, batch).records == batch + b.records
  {
    assert [] + (batch + b.records) == batch + b.records;
  }
}

=== FILE: strings.dfy ===
/** The few Python `str` operations the traced code relies on, over
    `string` (a `seq<char>`): `strip()`, `rstrip(chars)`, `split(sep)`,
    `find`-style search for one character, and `endswith`. */
module Strings {
  import opened Wrappers

  /** The characters for which Python's `str.isspace()` holds; these are
      what `str.strip()` with no argument removes. */
  const Whitespace: set<char> := {
    '\t', '\n', '\U{B}', '\U{C}', '\r', '\U{1C}', '\U{1D}', '\U{1E}', '\U{1F}', ' ',
    '\U{85}', '\U{A0}', '\U{1680}',
    '\U{2000}', '\U{2001}', '\U{2002}', '\U{2003}', '\U{2004}', '\U{2005}',
    '\U{2006}', '\U{2007}', '\U{2008}', '\U{2009}', '\U{200A}',
    '\U{2028}', '\U{2029}', '\U{202F}', '\U{205F}', '\U{3000}'
  }

  /** Every character of `s` is in `cs`. */
  predicate AllIn(s: string, cs: set<char>) {
    forall i :: 0 <= i < |s| ==> s[i] in cs
  }

  /** `s` has no leading and no trailing whitespace: `s.strip() == s`. */
  predicate IsStripped(s: string) {
    |s| == 0 || (s[0] !in Whitespace && s[|s| - 1] !in Whitespace)
  }

  /** Python `s.lstrip(chars)`: drops the longest prefix made of characters in `cs`. */
  function TrimStart(s: string, cs: set<char>): (r: string)
    ensures |r| <= |s| && r == s[|s| - |r|..]
    ensures |r| == 0 || r[0] !in cs
    ensures AllIn(s[..|s| - |r|], cs)
    decreases |s|
  {
    if |s| > 0 && s[0] in cs then TrimStart(s[1..], cs) else s
  }

  /** Python `s.rstrip(chars)`: drops the longest suffix made of characters in `cs`. */
  function TrimEnd(s: string, cs: set<char>): (r: string)
    ensures r <= s
    ensures |r| == 0 || r[|r| - 1] !in cs
    ensures AllIn(s[|r|..], cs)
    decreases |s|
  {
    if |s| > 0 && s[|s| - 1] in cs then
      var r := TrimEnd(s[..|s| - 1], cs);
      assert s[|r|..] == s[..|s| - 1][|r|..] + [s[|s| - 1]];
      r
    else s
  }

  /** Python `s.strip()`. */
  function Strip(s: string): (r: string)
    ensures IsStripped(r)
    ensures |r| <= |s|
  {
    TrimEnd(TrimStart(s, Whitespace), Whitespace)
  }

  /** Python `s.endswith(suffix)`. */
  predicate EndsWith(s: string, suffix: string) {
    |suffix| <= |s| && s[|s| - |suffix|..] == suffix
  }

  /** The index of the first occurrence of `c` in `s`, if any. */
  function IndexOf(s: string, c: char): (r: Option<nat>)
    ensures r.None? <==> c !in s
    ensures r.Some? ==> r.value < |s| && s[r.value] == c && c !in s[..r.value]
  {
    if |s| == 0 then None
    else if s[0] == c then Some(0)
    else match IndexOf(s[1..], c)
      case None => None
      case Some(i) => assert s[1..][..i] == s[1..i + 1]; Some(i + 1)
  }

  /** Python `sep.join(pieces)` for a one-character separator. */
  function Join(pieces: seq<string>, sep: char): (r: string)
    ensures |pieces| > 0 ==> pieces[0] <= r
  {
    if |pieces| == 0 then ""
    else if |pieces| == 1 then pieces[0]
    else pieces[0] + [sep] + Join(pieces[1..], sep)
  }

  /** Python `s.split(sep)` for a one-character separator: always at least
      one piece, no piece holds the separator, and joining the pieces back
      gives `s` again. */
  function Split(s: string, sep: char): (r: seq<string>)
    ensures |r| >= 1
    ensures forall i :: 0 <= i < |r| ==> sep !in r[i]
    ensures Join(r, sep) == s
    decreases |s|
  {
    match IndexOf(s, sep)
    case None => [s]
    case Some(i) =>
      var rest := Split(s[i + 1..], sep);
      assert s == s[..i] + [sep] + s[i + 1..];
      [s[..i]] + rest
  }

  /** The other half of the round trip: pieces free of the separator are
      recovered by splitting their join. */
  lemma {:induction false} SplitJoin(pieces: seq<string>, sep: char)
    requires |pieces| >= 1
    requires forall i :: 0 <= i < |pieces| ==> sep !in pieces[i]
    ensures Split(Join(pieces, sep), sep) == pieces
    decreases |pieces|
  {
    if |pieces| > 1 {
      var s := Join(pieces, sep);
      var p := pieces[0];
      assert s == p + [sep] + Join(pieces[1..], sep);
      assert s[..|p|] == p;
      assert s[|p|] == sep;
      assert IndexOf(s, sep) == Some(|p|);
      assert s[|p| + 1..] == Join(pieces[1..], sep);
      SplitJoin(pieces[1..], sep);
      assert pieces == [p] + pieces[1..];
    }
  }

  /** `lstrip` ignores any prefix of stripped characters: with `u` not
      starting with one, the result is exactly `u`. */
  lemma {:induction false} TrimStartPrefix(a: string, u: string, cs: set<char>)
    requires AllIn(a, cs)
    requires |u| == 0 || u[0] !in cs
    ensures TrimStart(a + u, cs) == u
    decreases |a|
  {
    if |a| == 0 {
      assert a + u == u;
    } else {
      assert (a + u)[1..] == a[1..] + u;
      TrimStartPrefix(a[1..], u, cs);
    }
  }

  /** `rstrip` ignores any suffix of stripped characters: with `u` not
      ending with one, the result is exactly `u`. */
  lemma {:induction false} TrimEndSuffix(u: string, b: string, cs: set<char>)
    requires AllIn(b, cs)
    requires |u| == 0 || u[|u| - 1] !in cs
    ensures TrimEnd(u + b, cs) == u
    decreases |b|
  {
    if |b| == 0 {
      assert u + b == u;
    } else {
      var s := u + b;
      assert s[..|s| - 1] == u + b[..|b| - 1];
      TrimEndSuffix(u, b[..|b| - 1], cs);
    }
  }

  /** `strip()` removes exactly the surrounding whitespace: for any
      whitespace-only `a` and `b` and stripped `t`, `(a + t + b).strip() == t`. */
  lemma StripSurrounded(a: string, t: string, b: string)
    requires AllIn(a, Whitespace) && AllIn(b, Whitespace)
    requires IsStripped(t)
    ensures Strip(a + t + b) == t
  {
    if |t| == 0 {
      assert a + t + b == a + b;
      assert AllIn(a + b, Whitespace);
      TrimStartPrefix(a + b, "", Whitespace);
      assert a + b + "" == a + b;
    } else {
      assert a + t + b == a + (t + b);
      TrimStartPrefix(a, t + b, Whitespace);
      TrimEndSuffix(t, b, Whitespace);
    }
  }

  /** `strip()` is idempotent. */
  lemma StripIdempotent(s: string)
    ensures Strip(Strip(s)) == Strip(s)
  {
    StrippedIsFixed(Strip(s));
  }

  /** `strip()` leaves a string with no surrounding whitespace as it is. */
  lemma StrippedIsFixed(t: string)
    requires IsStripped(t)
    ensures Strip(t) == t
  {
    StripSurrounded("", t, "");
    assert "" + t + "" == t;
  }
}

=== FILE: tracing.dfy ===
/** The `WithTracing` decorator: how a call's arguments and result become
    span attributes, how a span is named, and the life of the span around a
    plain call and around a traced generator. The OpenTelemetry span is
    abstracted to what these rules touch (name, attributes, status, recorded
    exceptions, and how often `end()` was called); the context token is
    abstracted to a count of detaches. */
module Tracing {
  import opened Wrappers
  import opened Values

  // ---------------------------------------------------------------------
  // Preparing input and output

  /** `_prepare_input`: no arguments give `None`; one positional argument
      alone gives that argument serialized; otherwise a dict with an `args`
      list exactly when there are positional arguments and a `kwargs` dict
      exactly when there are keyword arguments, each element serialized. */
  function PrepareInput(enc: Encoder, args: seq<Value>, kwargs: seq<Entry>): (r: Value)
    ensures |args| == 0 && |kwargs| == 0 ==> r == PyNone
    ensures |args| == 1 && |kwargs| == 0 ==> r == Serialize(enc, args[0])
    ensures |args| > 1 || |kwargs| > 0 ==>
      && r.PyDict?
      && (Lookup(r.entries, "args") == if |args| > 0 then Some(PyList(SerializeAll(enc, args))) else None)
      && (Lookup(r.entries, "kwargs") == if |kwargs| > 0 then Some(PyDict(SerializeEntries(enc, kwargs))) else None)
      && (forall i :: 0 <= i < |r.entries| ==> r.entries[i].key == "args" || r.entries[i].key == "kwargs")
      && KeysOfEntries(r.entries) == (if |args| > 0 then ["args"] else []) + (if |kwargs| > 0 then ["kwargs"] else [])
  {
    if |args| == 0 && |kwargs| == 0 then PyNone
    else if |args| == 1 && |kwargs| == 0 then Serialize(enc, args[0])
    else
      var a := if |args| > 0 then [Entry("args", PyList(SerializeAll(enc, args)))] else [];
      var k := if |kwargs| > 0 then [Entry("kwargs", PyDict(SerializeEntries(enc, kwargs)))] else [];
      assert "args" != "kwargs";
      KeysOfEntriesConcat(a, k);
      PyDict(a + k)
  }

  /** The user's filter and ignore list for one side of the call. A filter
      is any function (every Python function is truthy); an empty ignore
      list stands for both `None` and an empty list. */
  datatype Options = Options(
    filterInput: Option<Value -> Value>,
    ignoreInput: seq<string>,
    filterOutput: Option<Value -> Value>,
    ignoreOutput: seq<string>)

  /** The shared core of `_prepare_and_filter_input` and
      `_prepare_and_filter_output`: apply the filter, then, when the result
      is a dict and there is something to ignore, drop the listed keys.
      Exactly the entries whose key is not listed survive, in their order;
      anything that is not a dict passes through. (The input side deletes in place and the
      output side on a copy; with immutable values the two coincide.) */
  function FilterAndIgnore(data: Value, filter: Option<Value -> Value>, ignore: seq<string>): (r: Value)
    ensures var d := if filter.Some? then filter.value(data) else data;
      && (d.PyDict? && |ignore| > 0 ==> r.PyDict? && r.entries == Unlisted(d.entries, ignore))
      && (d.PyDict? && |ignore| > 0 ==> forall e :: e in r.entries <==> Kept(d.entries, ignore, e))
      && (!d.PyDict? || |ignore| == 0 ==> r == d)
  {
    var d := if filter.Some? then filter.value(data) else data;
    if |ignore| > 0 && d.PyDict? then
      var kept := DropKeys(d.entries, ignore);
      DropKeysIsUnlisted(d.entries, ignore);
      assert forall e :: e in kept <==> Kept(d.entries, ignore, e) by {
        forall e ensures e in kept <==> Kept(d.entries, ignore, e) {
          DropKeysContents(d.entries, ignore, e);
        }
      }
      PyDict(kept)
    else d
  }

  function PrepareAndFilterInput(enc: Encoder, args: seq<Value>, kwargs: seq<Entry>, opts: Options): Value {
    FilterAndIgnore(PrepareInput(enc, args, kwargs), opts.filterInput, opts.ignoreInput)
  }

  function PrepareAndFilterOutput(result: Value, opts: Options): Value {
    FilterAndIgnore(result, opts.filterOutput, opts.ignoreOutput)
  }

  /** Without an input filter the ignore list only ever sees the keys
      `args` and `kwargs`: an ignore list naming neither (say, a parameter
      name) changes nothing. */
  lemma IgnoreInputWithoutFilter(enc: Encoder, args: seq<Value>, kwargs: seq<Entry>, opts: Options)
    requires opts.filterInput.None?
    requires "args" !in opts.ignoreInput && "kwargs" !in opts.ignoreInput
    ensures PrepareAndFilterInput(enc, args, kwargs, opts) == PrepareInput(enc, args, kwargs)
  {
    var d := PrepareInput(enc, args, kwargs);
    if |opts.ignoreInput| > 0 && (|args| > 1 || |kwargs| > 0) {
      DropAbsentKeys(d.entries, opts.ignoreInput);
    }
  }

  // ---------------------------------------------------------------------
  // The span

  datatype Status = Unset | Ok | Error(description: string)

  /** A raised exception: its class name and `str()`. */
  datatype Exception = Exception(kind: string, message: string)

  /** The parts of an OpenTelemetry span these rules touch. `sampled`
      says whether the tracer gave a recording span; `endCount` counts the
      calls to `end()`. */
  datatype Span = Span(
    name: string,
    sampled: bool,
    attributes: map<string, Value>,
    status: Status,
    exceptions: seq<Exception>,
    endCount: nat)

  function NewSpan(name: string, sampled: bool): Span {
    Span(name, sampled, map[], Unset, [], 0)
  }

  /** `span.is_recording()`: sampled and not yet ended. Every change to a
      span that is not recording is ignored. */
  predicate IsRecording(s: Span) {
    s.sampled && s.endCount == 0
  }

  /** `span.set_attribute`: a `None` value is dropped. */
  function SetAttribute(s: Span, key: string, v: Value): Span {
    if IsRecording(s) && !v.PyNone? then s.(attributes := s.attributes[key := v]) else s
  }

  function SetStatus(s: Span, status: Status): Span {
    if IsRecording(s) then s.(status := status) else s
  }

  function RecordException(s: Span, e: Exception): Span {
    if IsRecording(s) then s.(exceptions := s.exceptions + [e]) else s
  }

  function End(s: Span): Span {
    s.(endCount := s.endCount + 1)
  }

  /** `_handle_span_exception`: the exception is recorded and the status
      becomes ERROR with the exception's message; attributes are untouched
      and the span is not ended. */
  function HandleException(s: Span, e: Exception): (r: Span)
    ensures IsRecording(s) ==> r.status == Error(e.message) && r.exceptions == s.exceptions + [e]
    ensures !IsRecording(s) ==> r == s
    ensures r.attributes == s.attributes && r.endCount == s.endCount && r.name == s.name && r.sampled == s.sampled
  {
    SetStatus(RecordException(s, e), Error(e.message))
  }

  /** Handling is cumulative and stops at `end()`: two exceptions on a
      recording span are both recorded, in order, and the status carries
      the later message; on an ended span handling changes nothing. */
  lemma HandleExceptionAccumulates(s: Span, e1: Exception, e2: Exception)
    ensures IsRecording(s) ==>
      && HandleException(HandleException(s, e1), e2).exceptions == s.exceptions + [e1, e2]
      && HandleException(HandleException(s, e1), e2).status == Error(e2.message)
    ensures HandleException(End(s), e1) == End(s)
  {
    assert s.exceptions + [e1] + [e2] == s.exceptions + [e1, e2];
  }

  // ---------------------------------------------------------------------
  // Naming and wrapping

  /** `name or fn.__name__ or "_"`: never empty. */
  function SpanName(explicit: Option<string>, fnName: string): (r: string)
    ensures r != ""
    ensures explicit.Some? && explicit.value != "" ==> r == explicit.value
    ensures (explicit.None? || explicit.value == "") ==> r == (if fnName != "" then fnName else "_")
  {
    if explicit.Some? && explicit.value != "" then explicit.value
    else if fnName != "" then fnName
    else "_"
  }

  datatype Shape = SyncFn | AsyncFn | GeneratorFn | AsyncGeneratorFn

  /** A function as the decorator sees it: its `__name__`, its kind, and
      the span name it is traced under once wrapped (the `_is_traced`
      marker). */
  datatype Callable = Callable(name: string, shape: Shape, tracedAs: Option<string>)

  /** The decorator: an already traced function is returned unchanged;
      any other is wrapped under its span name, keeping its name and kind. */
  function WithTracing(fn: Callable, name: Option<string>): (r: Callable)
    ensures fn.tracedAs.Some? ==> r == fn
    ensures fn.tracedAs.None? ==> r.tracedAs.Some? && r.tracedAs.value == SpanName(name, fn.name)
    ensures r.name == fn.name && r.shape == fn.shape
  {
    if fn.tracedAs.Some? then fn else fn.(tracedAs := Some(SpanName(name, fn.name)))
  }

  /** Tracing twice is tracing once, whatever name the second time asks for. */
  lemma WithTracingIdempotent(fn: Callable, first: Option<string>, second: Option<string>)
    ensures WithTracing(WithTracing(fn, first), second) == WithTracing(fn, first)
    ensures WithTracing(fn, first).tracedAs.Some?
  {
  }

  // ---------------------------------------------------------------------
  // A plain (sync or awaited async) call

  /** What the wrapped function did: returned a value or raised. */
  datatype Outcome = Returned(value: Value) | Raised(error: Exception)

  /** `_setup_span`: on a recording span, sets `input` (when there is
      any) and says so; a span that is not recording is left alone. */
  function SetupSpan(enc: Encoder, s: Span, input: Value): (r: (Span, bool))
    ensures r.1 <==> IsRecording(s)
    ensures r.0.endCount == s.endCount && r.0.status == s.status && r.0.exceptions == s.exceptions
    ensures r.1 && !input.PyNone? ==> r.0.attributes == s.attributes["input" := Serialize(enc, input)]
    ensures !r.1 || input.PyNone? ==> r.0 == s
  {
    if !IsRecording(s) then (s, false)
    else if input.PyNone? then (s, true)
    else (SetAttribute(s, "input", Serialize(enc, input)), true)
  }

  /** `_finalize_span_success`: the prepared output as the `output`
      attribute, then status OK. */
  function FinalizeSuccess(enc: Encoder, opts: Options, s: Span, result: Value): (r: Span)
    requires IsRecording(s)
    ensures r.status == Ok && r.exceptions == s.exceptions && r.endCount == s.endCount
    ensures r.name == s.name && r.sampled == s.sampled
    ensures var out := PrepareAndFilterOutput(result, opts);
      r.attributes == if out.PyNone? then s.attributes else s.attributes["output" := Serialize(enc, out)]
  {
    var out := PrepareAndFilterOutput(result, opts);
    SetStatus(SetAttribute(s, "output", Serialize(enc, out)), Ok)
  }

  datatype CallResult = CallResult(span: Span, outcome: Outcome)

  /** `_execute_with_span_sync` (and `_execute_with_span_async` once the
      coroutine is awaited): the caller sees exactly what the function did
      — its value, or its exception re-raised — and the span is ended
      exactly once. On a recording span a return sets `output` and OK, a
      raise records the exception and sets ERROR with its message; a span
      that is not recording is only ended. */
  function ExecuteWithSpan(enc: Encoder, opts: Options, s: Span, input: Value, outcome: Outcome): (r: CallResult)
    ensures r.outcome == outcome
    ensures r.span.endCount == s.endCount + 1 && r.span.name == s.name && r.span.sampled == s.sampled
    ensures !IsRecording(s) ==> r.span == End(s)
    ensures IsRecording(s) && !input.PyNone? ==>
      "input" in r.span.attributes && r.span.attributes["input"] == Serialize(enc, input)
    ensures IsRecording(s) && outcome.Returned? ==>
      && r.span.status == Ok && r.span.exceptions == s.exceptions
      && var out := PrepareAndFilterOutput(outcome.value, opts);
        (!out.PyNone? ==> "output" in r.span.attributes && r.span.attributes["output"] == Serialize(enc, out))
    ensures IsRecording(s) && outcome.Returned? ==>
      var setup := SetupSpan(enc, s, input).0.attributes;
      var out := PrepareAndFilterOutput(outcome.value, opts);
      r.span.attributes == if out.PyNone? then setup else setup["output" := Serialize(enc, out)]
    ensures IsRecording(s) && outcome.Raised? ==>
      && r.span.status == Error(outcome.error.message)
      && r.span.exceptions == s.exceptions + [outcome.error]
      && r.span.attributes == SetupSpan(enc, s, input).0.attributes
  {
    var (span, recording) := SetupSpan(enc, s, input);
    if !recording then CallResult(End(span), outcome)
    else match outcome
      case Returned(v) => CallResult(End(FinalizeSuccess(enc, opts, span, v)), outcome)
      case Raised(e) => CallResult(End(HandleException(span, e)), outcome)
  }

  // ---------------------------------------------------------------------
  // Traced generators

  datatype GenKind = SyncGen | AsyncGen

  function KindName(kind: GenKind): string {
    match kind
    case SyncGen => "generator"
    case AsyncGen => "async_generator"
  }

  /** At most this many yielded values are sampled into the summary. */
  const SampleLimit: nat := 10

  function Min(a: nat, b: nat): nat {
    if a <= b then a else b
  }

  /** The output summary of an exhausted generator: its kind, how many
      values it yielded, the first (at most ten) of them serialized when
      there were any, and `truncated` when there were more than ten. */
  function Summary(enc: Encoder, kind: GenKind, yielded: seq<Value>): (r: seq<Entry>)
    ensures Lookup(r, "type") == Some(PyStr(KindName(kind)))
    ensures Lookup(r, "yielded_count") == Some(PyInt(|yielded|))
    ensures Lookup(r, "sample_values") ==
      if |yielded| > 0 then Some(PyList(SerializeAll(enc, yielded[..Min(SampleLimit, |yielded|)]))) else None
    ensures Lookup(r, "truncated") == if |yielded| > SampleLimit then Some(PyBool(true)) else None
    ensures KeysOfEntries(r) == ["type", "yielded_count"]
      + (if |yielded| > 0 then ["sample_values"] else [])
      + (if |yielded| > SampleLimit then ["truncated"] else [])
  {
    var n := |yielded|;
    var head := [Entry("type", PyStr(KindName(kind))), Entry("yielded_count", PyInt(n))];
    var samples := if n > 0 then [Entry("sample_values", PyList(SerializeAll(enc, yielded[..Min(SampleLimit, n)])))] else [];
    var flag := if n > SampleLimit then [Entry("truncated", PyBool(true))] else [];
    SummaryLookup(head, samples, flag);
    SummaryKeys(head, samples, flag);
    head + samples + flag
  }

  lemma SummaryKeys(head: seq<Entry>, samples: seq<Entry>, flag: seq<Entry>)
    requires |head| == 2 && head[0].key == "type" && head[1].key == "yielded_count"
    requires |samples| <= 1 && forall i :: 0 <= i < |samples| ==> samples[i].key == "sample_values"
    requires |flag| <= 1 && forall i :: 0 <= i < |flag| ==> flag[i].key == "truncated"
    ensures KeysOfEntries(head + samples + flag) == ["type", "yielded_count"]
      + (if |samples| == 1 then ["sample_values"] else [])
      + (if |flag| == 1 then ["truncated"] else [])
  {
    KeysOfEntriesConcat(head, samples);
    KeysOfEntriesConcat(head + samples, flag);
  }

  lemma SummaryLookup(head: seq<Entry>, samples: seq<Entry>, flag: seq<Entry>)
    requires |head| == 2 && head[0].key == "type" && head[1].key == "yielded_count"
    requires |samples| <= 1 && forall i :: 0 <= i < |samples| ==> samples[i].key == "sample_values"
    requires |flag| <= 1 && forall i :: 0 <= i < |flag| ==> flag[i].key == "truncated"
    ensures var r := head + samples + flag;
      && Lookup(r, "type") == Some(head[0].value)
      && Lookup(r, "yielded_count") == Some(head[1].value)
      && Lookup(r, "sample_values") == (if |samples| == 1 then Some(samples[0].value) else None)
      && Lookup(r, "truncated") == (if |flag| == 1 then Some(flag[0].value) else None)
  {
    var r := head + samples + flag;
    assert r == head + (samples + flag);
    LookupAppend(head, samples + flag, "sample_values");
    LookupAppend(head, samples + flag, "truncated");
    LookupAppend(samples, flag, "sample_values");
    LookupAppend(samples, flag, "truncated");
    LookupAppend(head, samples + flag, "type");
    LookupAppend(head, samples + flag, "yielded_count");
  }

  /** A `TracedGenerator` / `TracedAsyncGenerator`: its span, the values
      yielded so far, whether it is exhausted, and how often its context
      token was detached. */
  datatype TracedGen = TracedGen(kind: GenKind, span: Span, yielded: seq<Value>, exhausted: bool, detaches: nat)

  /** What the wrapped generator does when asked for its next value. */
  datatype GenStep = Yields(value: Value) | Stops | Throws(error: Exception)

  /** What the caller of `__next__` / `__anext__` sees. */
  datatype NextResult = Yielded(value: Value) | StopIteration | RaisedOut(error: Exception)

  /** The generator's `_finalize_span_success`: the span is finalized as a
      plain call's would be had it returned the summary of the values
      yielded so far; a span that is not recording is left alone. */
  function FinalizeGenerator(enc: Encoder, opts: Options, g: TracedGen): (r: Span)
    ensures IsRecording(g.span) ==> r == FinalizeSuccess(enc, opts, g.span, PyDict(Summary(enc, g.kind, g.yielded)))
    ensures !IsRecording(g.span) ==> r == g.span
  {
    var out := PrepareAndFilterOutput(PyDict(Summary(enc, g.kind, g.yielded)), opts);
    SetStatus(SetAttribute(g.span, "output", Serialize(enc, out)), Ok)
  }

  /** `__next__` / `__anext__`. Once exhausted it stops without consulting
      the generator or touching the span. A yielded value is recorded and
      passed on. The generator stopping finalizes the span with the
      summary and OK; the generator raising records the exception with
      ERROR; either way the context is detached, the span ended, and the
      stop or the exception passed on. */
  function GenNext(enc: Encoder, opts: Options, g: TracedGen, step: GenStep): (r: (TracedGen, NextResult))
    ensures g.exhausted ==> r == (g, StopIteration)
    ensures !g.exhausted && step.Yields? ==>
      r.1 == Yielded(step.value) && r.0 == g.(yielded := g.yielded + [step.value])
    ensures !g.exhausted && !step.Yields? ==>
      && r.0.exhausted && r.0.yielded == g.yielded && r.0.kind == g.kind
      && r.0.span.endCount == g.span.endCount + 1
      && r.0.detaches == g.detaches + 1
      && r.0.span.name == g.span.name && r.0.span.sampled == g.span.sampled
    ensures !g.exhausted && step.Stops? ==>
      && r.1 == StopIteration
      && (IsRecording(g.span) ==>
           && r.0.span.status == Ok && r.0.span.exceptions == g.span.exceptions
           && var out := PrepareAndFilterOutput(PyDict(Summary(enc, g.kind, g.yielded)), opts);
             r.0.span.attributes == if out.PyNone? then g.span.attributes else g.span.attributes["output" := Serialize(enc, out)])
    ensures !g.exhausted && step.Throws? ==>
      && r.1 == RaisedOut(step.error)
      && (IsRecording(g.span) ==>
           r.0.span.status == Error(step.error.message) && r.0.span.exceptions == g.span.exceptions + [step.error])
    ensures !g.exhausted && step.Throws? ==> r.0.span.attributes == g.span.attributes
  {
    if g.exhausted then (g, StopIteration)
    else match step
      case Yields(v) => (g.(yielded := g.yielded + [v]), Yielded(v))
      case Stops =>
        var span := End(FinalizeGenerator(enc, opts, g));
        (g.(span := span, exhausted := true, detaches := g.detaches + 1), StopIteration)
      case Throws(e) =>
        var span := End(HandleException(g.span, e));
        (g.(span := span, exhausted := true, detaches := g.detaches + 1), RaisedOut(e))
  }

  /** Iterating a traced generator over the given steps, one per call. */
  function Drive(enc: Encoder, opts: Options, g: TracedGen, steps: seq<GenStep>): (TracedGen, seq<NextResult>)
    decreases |steps|
  {
    if |steps| == 0 then (g, [])
    else
      var (g1, out) := GenNext(enc, opts, g, steps[0]);
      var (g2, outs) := Drive(enc, opts, g1, steps[1..]);
      (g2, [out] + outs)
  }

  /** The span and the context of a traced generator are settled together
      and only once: before exhaustion neither has happened, after it both
      have happened exactly once. */
  predicate SettledOnce(g: TracedGen) {
    if g.exhausted then g.span.endCount == 1 && g.detaches == 1
    else g.span.endCount == 0 && g.detaches == 0
  }

  /** However the generator is driven — any number of `next` calls, past
      the end or not — the span is never ended twice nor the context
      detached twice; it is ended exactly when the generator has stopped or
      raised. */
  lemma {:induction false} DriveSettlesOnce(enc: Encoder, opts: Options, g: TracedGen, steps: seq<GenStep>)
    requires SettledOnce(g)
    ensures SettledOnce(Drive(enc, opts, g, steps).0)
    ensures |Drive(enc, opts, g, steps).1| == |steps|
    decreases |steps|
  {
    if |steps| > 0 {
      var g1 := GenNext(enc, opts, g, steps[0]).0;
      assert SettledOnce(g1);
      DriveSettlesOnce(enc, opts, g1, steps[1..]);
    }
  }

  /** Values pass through unchanged and in order: driven by yields only,
      the caller receives exactly the generator's values, the span records
      them all, and the span stays open (a generator abandoned before its
      end never ends its span). */
  lemma {:induction false} DriveYieldsInOrder(enc: Encoder, opts: Options, g: TracedGen, values: seq<Value>)
    requires !g.exhausted
    ensures var steps := seq(|values|, i requires 0 <= i < |values| => Yields(values[i]));
      var (g', outs) := Drive(enc, opts, g, steps);
      && g' == g.(yielded := g.yielded + values)
      && outs == seq(|values|, i requires 0 <= i < |values| => Yielded(values[i]))
    decreases |values|
  {
    var steps := seq(|values|, i requires 0 <= i < |values| => Yields(values[i]));
    if |values| > 0 {
      var g1 := g.(yielded := g.yielded + [values[0]]);
      assert steps[1..] == seq(|values[1..]|, i requires 0 <= i < |values[1..]| => Yields(values[1..][i]));
      DriveYieldsInOrder(enc, opts, g1, values[1..]);
      assert g.yielded + [values[0]] + values[1..] == g.yielded + values;
      var outs := seq(|values|, i requires 0 <= i < |values| => Yielded(values[i]));
      assert outs == [Yielded(values[0])] + seq(|values[1..]|, i requires 0 <= i < |values[1..]| => Yielded(values[1..][i]));
    } else {
      assert g.yielded + values == g.yielded;
    }
  }

  /** Driving through two runs of steps is driving through the first, then
      the second from where the first left off. */
  lemma {:induction false} DriveConcat(enc: Encoder, opts: Options, g: TracedGen, a: seq<GenStep>, b: seq<GenStep>)
    ensures var (ga, outsA) := Drive(enc, opts, g, a);
      var (gb, outsB) := Drive(enc, opts, ga, b);
      Drive(enc, opts, g, a + b) == (gb, outsA + outsB)
    decreases |a|
  {
    if |a| == 0 {
      assert a + b == b;
      assert Drive(enc, opts, g, a) == (g, []);
      assert [] + Drive(enc, opts, g, b).1 == Drive(enc, opts, g, b).1;
    } else {
      assert (a + b)[0] == a[0] && (a + b)[1..] == a[1..] + b;
      var (g1, out) := GenNext(enc, opts, g, a[0]);
      DriveConcat(enc, opts, g1, a[1..], b);
      var (ga, outsA) := Drive(enc, opts, g1, a[1..]);
      var outsB := Drive(enc, opts, ga, b).1;
      assert [out] + (outsA + outsB) == ([out] + outsA) + outsB;
    }
  }

  /** The whole life of a traced generator on a recording span: `n` values
      yielded and then the end. The caller gets the values in order and then
      `StopIteration`; the span is ended once with status OK and its
      `output` is the (filtered) summary of exactly the values yielded. */
  lemma DriveYieldsThenStops(enc: Encoder, opts: Options, g: TracedGen, values: seq<Value>)
    requires !g.exhausted && SettledOnce(g) && IsRecording(g.span)
    ensures var steps := seq(|values|, i requires 0 <= i < |values| => Yields(values[i])) + [Stops];
      var (g', outs) := Drive(enc, opts, g, steps);
      var out := PrepareAndFilterOutput(PyDict(Summary(enc, g.kind, g.yielded + values)), opts);
      && outs == seq(|values|, i requires 0 <= i < |values| => Yielded(values[i])) + [StopIteration]
      && g'.exhausted && g'.yielded == g.yielded + values
      && g'.span.endCount == 1 && g'.span.status == Ok
      && g'.span.attributes == if out.PyNone? then g.span.attributes else g.span.attributes["output" := Serialize(enc, out)]
  {
    var ys := seq(|values|, i requires 0 <= i < |values| => Yields(values[i]));
    DriveConcat(enc, opts, g, ys, [Stops]);
    DriveYieldsInOrder(enc, opts, g, values);
    var gy := g.(yielded := g.yielded + values);
    assert Drive(enc, opts, g, ys).0 == gy;
    assert Drive(enc, opts, gy, [Stops]).0 == GenNext(enc, opts, gy, Stops).0;
  }

  /** How starting a traced generator function ends: a traced generator
      handed to the caller; the raw generator, untraced, with the span
      already ended; or an exception re-raised with the span ended. */
  datatype GenStart =
    | Traced(gen: TracedGen)
    | Untraced(span: Span, generator: Value, detaches: nat)
    | StartFailed(span: Span, error: Exception, detaches: nat)

  /** `_execute_generator_sync` and `_execute_generator_async`, given the
      outcome of obtaining the generator object. On a recording span the
      generator is wrapped with its span still open and its context still
      attached. On a span that is not recording the raw generator is
      returned, the context detached and the span ended. If obtaining the
      generator raises, the context is detached, the exception handled and
      re-raised, and the span ended. */
  function StartGenerator(enc: Encoder, kind: GenKind, s: Span, input: Value, created: Outcome): (r: GenStart)
    ensures created.Returned? && IsRecording(s) ==>
      r == Traced(TracedGen(kind, SetupSpan(enc, s, input).0, [], false, 0))
    ensures created.Returned? && !IsRecording(s) ==> r == Untraced(End(s), created.value, 1)
    ensures created.Raised? ==>
      && r.StartFailed? && r.error == created.error && r.detaches == 1
      && r.span.endCount == s.endCount + 1
      && (IsRecording(s) ==> r.span.status == Error(created.error.message))
    ensures created.Raised? ==>
      && r.span.name == s.name
      && r.span.attributes == SetupSpan(enc, s, input).0.attributes
      && (IsRecording(s) ==> r.span.exceptions == s.exceptions + [created.error])
      && (!IsRecording(s) ==> r.span == End(s))
  {
    var (span, recording) := SetupSpan(enc, s, input);
    match created
    case Raised(e) => StartFailed(End(HandleException(span, e)), e, 1)
    case Returned(gen) =>
      if !recording then Untraced(End(span), gen, 1)
      else Traced(TracedGen(kind, span, [], false, 0))
  }

  /** A traced generator as `StartGenerator` hands it over from a fresh span
      is settled neither way. */
  lemma StartedGeneratorUnsettled(enc: Encoder, kind: GenKind, name: string, input: Value, gen: Value)
    ensures var r := StartGenerator(enc, kind, NewSpan(name, true), input, Returned(gen));
      r.Traced? && SettledOnce(r.gen) && !r.gen.exhausted && r.gen.kind == kind
  {
  }

  /** The `TypeError` Python raises on `await` of an async generator object. */
  const NotAwaitable: Exception := Exception("TypeError", "object async_generator can't be used in 'await' expression")

  /** `await executor()` where the executor calls an async generator
      function: the call gives an async generator object, which cannot be
      awaited. */
  function AwaitAsyncGeneratorCall(created: Outcome): Outcome {
    match created
    case Returned(_) => Raised(NotAwaitable)
    case Raised(e) => Raised(e)
  }

  /** `_execute_generator_async` as written: the generator object is
      awaited before it is wrapped. */
  function StartAsyncGeneratorAsWritten(enc: Encoder, s: Span, input: Value, created: Outcome): GenStart {
    StartGenerator(enc, AsyncGen, s, input, AwaitAsyncGeneratorCall(created))
  }

  /** As written, no call of a traced async generator function ever yields
      anything: every call raises (a `TypeError` when obtaining the
      generator succeeded) and ends the span; on a recording span it is
      marked ERROR. */
  lemma AsyncGeneratorAsWrittenAlwaysFails(enc: Encoder, name: string, input: Value, gen: Value)
    ensures var r := StartAsyncGeneratorAsWritten(enc, NewSpan(name, true), input, Returned(gen));
      && r.StartFailed? && r.error == NotAwaitable
      && r.span.endCount == 1 && r.span.status == Error(NotAwaitable.message)
  {
  }

  /** `_execute_generator_async` as intended: the async generator object
      is wrapped without being awaited, exactly like the sync case. (The
      wrapper `async_gen_traced_fn` is itself a coroutine function, so a
      caller awaits the call to receive this traced async generator.) */
  function StartAsyncGenerator(enc: Encoder, s: Span, input: Value, created: Outcome): (r: GenStart)
    ensures created.Returned? && IsRecording(s) ==> r.Traced? && r.gen.kind == AsyncGen && !r.gen.exhausted
    ensures created.Returned? && !IsRecording(s) ==> r.Untraced? && r.generator == created.value
  {
    StartGenerator(enc, AsyncGen, s, input, created)
  }

  // ---------------------------------------------------------------------
  // One call of a traced function

  datatype Invocation = Completed(result: CallResult) | Started(start: GenStart)

  /** What a call of a traced generator function should hand back, from a
      fresh span under `name`: on a sampled span whose generator was
      created, the generator traced with its span open and nothing yielded;
      on an unsampled one, the raw generator with the span ended and the
      context detached; when creating the generator raised, that exception
      with the span ended (and marked ERROR when sampled) and the context
      detached. */
  predicate StartsGenerator(r: GenStart, kind: GenKind, name: string, sampled: bool, call: Outcome) {
    match call
    case Returned(gen) =>
      if sampled then
        r.Traced? && r.gen.kind == kind && r.gen.span.name == name
        && !r.gen.exhausted && r.gen.yielded == [] && SettledOnce(r.gen)
      else r == Untraced(End(NewSpan(name, false)), gen, 1)
    case Raised(e) =>
      && r.StartFailed? && r.error == e && r.detaches == 1
      && r.span.name == name && r.span.endCount == 1
      && (sampled ==> r.span.status == Error(e.message))
  }

  /** One call of the function `WithTracing` returned: prepare and filter
      the input, open a span under the traced name, then run the call the
      way its kind demands. `call` is what the function itself did (for a
      generator function, the outcome of creating the generator object).
      An async generator function goes through `_execute_generator_async`
      as written, so its call never starts a traced generator. */
  function Invoke(enc: Encoder, opts: Options, fn: Callable, sampled: bool,
                  args: seq<Value>, kwargs: seq<Entry>, call: Outcome): (r: Invocation)
    requires fn.tracedAs.Some?
    ensures fn.shape.SyncFn? || fn.shape.AsyncFn? ==>
      r.Completed? && r.result.outcome == call && r.result.span.endCount == 1 && r.result.span.name == fn.tracedAs.value
    ensures fn.shape.GeneratorFn? ==> r.Started? && StartsGenerator(r.start, SyncGen, fn.tracedAs.value, sampled, call)
    ensures fn.shape.AsyncGeneratorFn? ==>
      && r.Started? && r.start.StartFailed? && r.start.span.endCount == 1
      && r.start.error == (if call.Raised? then call.error else NotAwaitable)
  {
    var input := PrepareAndFilterInput(enc, args, kwargs, opts);
    var s := NewSpan(fn.tracedAs.value, sampled);
    match fn.shape
    case SyncFn => Completed(ExecuteWithSpan(enc, opts, s, input, call))
    case AsyncFn => Completed(ExecuteWithSpan(enc, opts, s, input, call))
    case GeneratorFn => Started(StartGenerator(enc, SyncGen, s, input, call))
    case AsyncGeneratorFn => Started(StartAsyncGeneratorAsWritten(enc, s, input, call))
  }

  /** One call with `_execute_generator_async` as intended: an async
      generator function starts its traced generator just as a generator
      function does; every other kind of call is as `Invoke` has it. */
  function InvokeIntended(enc: Encoder, opts: Options, fn: Callable, sampled: bool,
                          args: seq<Value>, kwargs: seq<Entry>, call: Outcome): (r: Invocation)
    requires fn.tracedAs.Some?
    ensures fn.shape.SyncFn? || fn.shape.AsyncFn? ==>
      r.Completed? && r.result.outcome == call && r.result.span.endCount == 1 && r.result.span.name == fn.tracedAs.value
    ensures fn.shape.GeneratorFn? ==> r.Started? && StartsGenerator(r.start, SyncGen, fn.tracedAs.value, sampled, call)
    ensures fn.shape.AsyncGeneratorFn? ==> r.Started? && StartsGenerator(r.start, AsyncGen, fn.tracedAs.value, sampled, call)
  {
    match fn.shape
    case AsyncGeneratorFn =>
      var input := PrepareAndFilterInput(enc, args, kwargs, opts);
      Started(StartAsyncGenerator(enc, NewSpan(fn.tracedAs.value, sampled), input, call))
    case _ => Invoke(enc, opts, fn, sampled, args, kwargs, call)
  }

  /** `add(2, 3)` traced as `add` on a recording span: input is the JSON of
      `{"args": [2, 3]}`, output is `5`, status OK, ended once, and the
      caller gets `5`. */
  lemma AddExample(enc: Encoder)
    ensures var fn := WithTracing(Callable("add", SyncFn, None), None);
      var opts := Options(None, [], None, []);
      var r := Invoke(enc, opts, fn, true, [PyInt(2), PyInt(3)], [], Returned(PyInt(5)));
      && r.Completed?
      && r.result.outcome == Returned(PyInt(5))
      && r.result.span.name == "add"
      && r.result.span.status == Ok
      && r.result.span.endCount == 1
      && r.result.span.attributes ==
           map["input" := PyStr(Stringify(enc, PyDict([Entry("args", PyList([PyInt(2), PyInt(3)]))]))),
               "output" := PyInt(5)]
  {
    var args := [PyInt(2), PyInt(3)];
    var opts := Options(None, [], None, []);
    var d := PyDict([Entry("args", PyList(args))]);
    assert SerializeAll(enc, args) == args;
    assert [Entry("args", PyList(args))] + [] == d.entries;
    assert PrepareInput(enc, args, []) == d;
    assert PrepareAndFilterInput(enc, args, [], opts) == d;
    assert Serialize(enc, d) == PyStr(Stringify(enc, d));
    assert PrepareAndFilterOutput(PyInt(5), opts) == PyInt(5);
  }

  /** A generator that yields fifteen values: the summary counts fifteen,
      samples the first ten and is marked truncated. */
  lemma FifteenValueSummary(enc: Encoder, kind: GenKind, yielded: seq<Value>)
    requires |yielded| == 15
    ensures var r := Summary(enc, kind, yielded);
      && Lookup(r, "yielded_count") == Some(PyInt(15))
      && Lookup(r, "sample_values").Some?
      && Lookup(r, "sample_values").value == PyList(SerializeAll(enc, yielded[..10]))
      && Lookup(r, "truncated") == Some(PyBool(true))
  {
  }

  // ---------------------------------------------------------------------
  // Helpers on the active span

  /** `set_span_attribute`: on a recording active span sets the serialized
      value and answers true; otherwise changes nothing and answers false. */
  function SetSpanAttribute(enc: Encoder, current: Span, key: string, value: Value): (r: (Span, bool))
    ensures r.1 <==> IsRecording(current)
    ensures !r.1 ==> r.0 == current
    ensures r.1 && !value.PyNone? ==> r.0.attributes == current.attributes[key := Serialize(enc, value)]
    ensures value.PyNone? ==> r.0.attributes == current.attributes
    ensures r.0.status == current.status && r.0.endCount == current.endCount
    ensures r.0.name == current.name && r.0.exceptions == current.exceptions && r.0.sampled == current.sampled
  {
    if IsRecording(current) then (SetAttribute(current, key, Serialize(enc, value)), true)
    else (current, false)
  }

  /** `set_span_name`: renames a recording active span and answers true;
      otherwise changes nothing and answers false. */
  function SetSpanName(current: Span, name: string): (r: (Span, bool))
    ensures r.1 <==> IsRecording(current)
    ensures r.1 ==> r.0 == current.(name := name)
    ensures !r.1 ==> r.0 == current
  {
    if IsRecording(current) then (current.(name := name), true) else (current, false)
  }

  /** `_setup_span` records the input as `set_span_attribute` would on
      the active span; and renaming the active span and setting one of its
      attributes do not interfere, in either order. */
  lemma ActiveSpanHelpersAgree(enc: Encoder, s: Span, input: Value, key: string, value: Value, name: string)
    ensures SetupSpan(enc, s, input) == SetSpanAttribute(enc, s, "input", input)
    ensures SetSpanAttribute(enc, SetSpanName(s, name).0, key, value).0
         == SetSpanName(SetSpanAttribute(enc, s, key, value).0, name).0
    ensures SetSpanAttribute(enc, SetSpanName(s, name).0, key, value).1 == SetSpanAttribute(enc, s, key, value).1
  {
  }
}

=== FILE: values.dfy ===
/** The Python values the tracing decorator handles, reduced to what its
    logic distinguishes: the attribute primitives, lists, tuples, dicts (an
    insertion-ordered sequence of entries with string keys) and any other
    object. `json.dumps` and `str()` are not modelled; they are an
    `Encoder` given as a parameter. */
module Values {
  import opened Wrappers

  datatype Value =
    | PyNone
    | PyStr(s: string)
    | PyInt(i: int)
    | PyFloat(bits: bv64)
    | PyBool(b: bool)
    | PyBytes(bytes: seq<bv8>)
    | PyList(items: seq<Value>)
    | PyTuple(items: seq<Value>)
    | PyDict(entries: seq<Entry>)
    | PyObject(id: nat)

  datatype Entry = Entry(key: string, value: Value)

  /** `json.dumps(v)`, which yields `None` where it raises `TypeError` or
      `ValueError`, and `str(v)`. */
  datatype Encoder = Encoder(dumps: Value -> Option<string>, repr: Value -> string)

  /** The JSON text of `v`, or `str(v)` when it has none. */
  function Stringify(enc: Encoder, v: Value): (r: string)
    ensures enc.dumps(v).Some? ==> r == enc.dumps(v).value
    ensures enc.dumps(v).None? ==> r == enc.repr(v)
  {
    match enc.dumps(v)
    case Some(text) => text
    case None => enc.repr(v)
  }

  /** `None`, `str`, `int`, `float`, `bool` or `bytes`. */
  predicate IsPrimitive(v: Value) {
    v.PyNone? || v.PyStr? || v.PyInt? || v.PyFloat? || v.PyBool? || v.PyBytes?
  }

  predicate AllPrimitive(items: seq<Value>) {
    forall i :: 0 <= i < |items| ==> IsPrimitive(items[i])
  }

  /** What a span attribute may hold here: a primitive or a list of them. */
  predicate IsAttributeValue(v: Value) {
    IsPrimitive(v) || (v.PyList? && AllPrimitive(v.items))
  }

  /** `_serialize_for_span`: primitives are kept; a list or tuple of
      primitives becomes a list with the same items in order; anything else
      becomes its JSON text, or its `str()` when JSON fails. The result is
      always a valid attribute value. */
  function Serialize(enc: Encoder, v: Value): (r: Value)
    ensures IsAttributeValue(r)
    ensures IsPrimitive(v) ==> r == v
    ensures (v.PyList? || v.PyTuple?) && AllPrimitive(v.items) ==> r == PyList(v.items)
    ensures !IsPrimitive(v) && !((v.PyList? || v.PyTuple?) && AllPrimitive(v.items)) ==>
      r == PyStr(Stringify(enc, v))
  {
    if IsPrimitive(v) then v
    else if (v.PyList? || v.PyTuple?) && AllPrimitive(v.items) then PyList(v.items)
    else PyStr(Stringify(enc, v))
  }

  /** The values `_serialize_for_span` leaves alone are exactly the valid
      attribute values; so applying it twice is applying it once. */
  lemma SerializeFixedPoints(enc: Encoder, v: Value)
    ensures Serialize(enc, v) == v <==> IsAttributeValue(v)
    ensures Serialize(enc, Serialize(enc, v)) == Serialize(enc, v)
  {
  }

  /** Element-wise `_serialize_for_span`, order kept. */
  function SerializeAll(enc: Encoder, vs: seq<Value>): (r: seq<Value>)
    ensures |r| == |vs|
    ensures forall i :: 0 <= i < |vs| ==> r[i] == Serialize(enc, vs[i])
  {
    seq(|vs|, i requires 0 <= i < |vs| => Serialize(enc, vs[i]))
  }

  /** Value-wise `_serialize_for_span` over a dict, keys and order kept. */
  function SerializeEntries(enc: Encoder, es: seq<Entry>): (r: seq<Entry>)
    ensures |r| == |es|
    ensures forall i :: 0 <= i < |es| ==> r[i] == Entry(es[i].key, Serialize(enc, es[i].value))
  {
    seq(|es|, i requires 0 <= i < |es| => Entry(es[i].key, Serialize(enc, es[i].value)))
  }

  /** The keys of a dict in insertion order, which is also the order of
      its JSON text. */
  function KeysOfEntries(es: seq<Entry>): seq<string> {
    seq(|es|, i requires 0 <= i < |es| => es[i].key)
  }

  lemma KeysOfEntriesConcat(a: seq<Entry>, b: seq<Entry>)
    ensures KeysOfEntries(a + b) == KeysOfEntries(a) + KeysOfEntries(b)
  {
  }

  predicate HasKey(es: seq<Entry>, key: string) {
    exists i :: 0 <= i < |es| && es[i].key == key
  }

  /** `d.get(key)` on a dict with distinct keys: the first entry's value. */
  function Lookup(es: seq<Entry>, key: string): (r: Option<Value>)
    ensures r.None? <==> !HasKey(es, key)
    ensures r.Some? ==> exists i :: 0 <= i < |es| && es[i] == Entry(key, r.value)
  {
    if |es| == 0 then None
    else if es[0].key == key then Some(es[0].value)
    else
      var rest := Lookup(es[1..], key);
      assert forall i :: 0 <= i < |es| - 1 ==> es[1..][i] == es[i + 1];
      rest
  }

  /** Looking a key up in two dicts laid end to end finds it in the
      first when it is there, else in the second. */
  lemma {:induction false} LookupAppend(a: seq<Entry>, b: seq<Entry>, key: string)
    ensures Lookup(a + b, key) == if HasKey(a, key) then Lookup(a, key) else Lookup(b, key)
    decreases |a|
  {
    if |a| > 0 {
      assert (a + b)[1..] == a[1..] + b;
      LookupAppend(a[1..], b, key);
      assert HasKey(a, key) <==> a[0].key == key || HasKey(a[1..], key) by {
        assert forall i :: 0 < i < |a| ==> a[i] == a[1..][i - 1];
        assert forall i :: 0 <= i < |a| - 1 ==> a[1..][i] == a[i + 1];
      }
    } else {
      assert a + b == b;
    }
  }

  /** `del d[key]` when `key in d`: the entries with other keys, in order. */
  function RemoveKey(es: seq<Entry>, key: string): (r: seq<Entry>)
    ensures !HasKey(r, key)
    ensures |r| <= |es|
    decreases |es|
  {
    if |es| == 0 then []
    else if es[0].key == key then RemoveKey(es[1..], key)
    else [es[0]] + RemoveKey(es[1..], key)
  }

  /** The ignore loop: for each listed key present, delete it. */
  function DropKeys(es: seq<Entry>, ignore: seq<string>): seq<Entry>
    decreases |ignore|
  {
    if |ignore| == 0 then es else DropKeys(RemoveKey(es, ignore[0]), ignore[1..])
  }

  /** The declarative meaning of the ignore loop: an entry survives exactly
      when it was there and its key is not listed. */
  predicate Kept(es: seq<Entry>, ignore: seq<string>, e: Entry) {
    e in es && e.key !in ignore
  }

  lemma {:induction false} RemoveKeyContents(es: seq<Entry>, key: string, e: Entry)
    ensures e in RemoveKey(es, key) <==> e in es && e.key != key
    decreases |es|
  {
    if |es| > 0 {
      RemoveKeyContents(es[1..], key, e);
      assert es == [es[0]] + es[1..];
    }
  }

  /** Deleting the listed keys one after another keeps exactly the entries
      whose key is not listed. */
  lemma {:induction false} DropKeysContents(es: seq<Entry>, ignore: seq<string>, e: Entry)
    ensures e in DropKeys(es, ignore) <==> Kept(es, ignore, e)
    decreases |ignore|
  {
    if |ignore| > 0 {
      DropKeysContents(RemoveKey(es, ignore[0]), ignore[1..], e);
      RemoveKeyContents(es, ignore[0], e);
      assert ignore == [ignore[0]] + ignore[1..];
    }
  }

  /** The reference reading of the ignore list: the entries whose key is
      not listed, in their original order. */
  function Unlisted(es: seq<Entry>, ignore: seq<string>): seq<Entry>
    decreases |es|
  {
    if |es| == 0 then []
    else (if es[0].key in ignore then [] else [es[0]]) + Unlisted(es[1..], ignore)
  }

  /** Deleting one key and then the rest of the list is filtering by the
      whole list. */
  lemma {:induction false} RemoveKeyThenUnlisted(es: seq<Entry>, key: string, rest: seq<string>)
    ensures Unlisted(RemoveKey(es, key), rest) == Unlisted(es, [key] + rest)
    decreases |es|
  {
    if |es| > 0 {
      RemoveKeyThenUnlisted(es[1..], key, rest);
      if es[0].key != key {
        var tail := RemoveKey(es[1..], key);
        assert ([es[0]] + tail)[0] == es[0] && ([es[0]] + tail)[1..] == tail;
      }
    }
  }

  /** The ignore loop keeps exactly the unlisted entries, in order and
      each as often as it was there. */
  lemma {:induction false} DropKeysIsUnlisted(es: seq<Entry>, ignore: seq<string>)
    ensures DropKeys(es, ignore) == Unlisted(es, ignore)
    decreases |ignore|
  {
    if |ignore| == 0 {
      UnlistedNothing(es);
    } else {
      DropKeysIsUnlisted(RemoveKey(es, ignore[0]), ignore[1..]);
      RemoveKeyThenUnlisted(es, ignore[0], ignore[1..]);
      assert [ignore[0]] + ignore[1..] == ignore;
    }
  }

  lemma {:induction false} UnlistedNothing(es: seq<Entry>)
    ensures Unlisted(es, []) == es
    decreases |es|
  {
    if |es| > 0 {
      UnlistedNothing(es[1..]);
      assert [es[0]] + es[1..] == es;
    }
  }

  /** Keys that are not present are not touched: the ignore loop leaves a
      dict with none of the listed keys exactly as it was. */
  lemma {:induction false} DropAbsentKeys(es: seq<Entry>, ignore: seq<string>)
    requires forall i :: 0 <= i < |es| ==> es[i].key !in ignore
    ensures DropKeys(es, ignore) == es
    decreases |ignore|
  {
    if |ignore| > 0 {
      RemoveAbsentKey(es, ignore[0]);
      DropAbsentKeys(es, ignore[1..]);
    }
  }

  lemma {:induction false} RemoveAbsentKey(es: seq<Entry>, key: string)
    requires forall i :: 0 <= i < |es| ==> es[i].key != key
    ensures RemoveKey(es, key) == es
    decreases |es|
  {
    if |es| > 0 {
      RemoveAbsentKey(es[1..], key);
      assert es == [es[0]] + es[1..];
    }
  }
}

=== FILE: wrappers.dfy ===
/** Failure-carrying datatypes used across the model: an optional value
    (Python's `None` or a value) and a success-or-error result (a value or
    a raised exception). */
module Wrappers {

  datatype Option<+T> = None | Some(value: T) {

    /** The value, or `default` when there is none. */
    function GetOr(default: T): T {
      match this
      case Some(v) => v
      case None => default
    }
  }

  datatype Result<+R, +E> = Success(value: R) | Failure(error: E)
}
